=== FILE: README.md ===
# Security Hub remediation workflow — a Dafny model

This project models the deterministic core of an AWS Security Hub remediation workflow. The workflow's steps are:

1. **The launcher** sees an event saying that Security Hub was enabled in a member account. It builds a ten-field seed record from its configuration and the member named in the event. It then starts a Step Functions execution of the workflow's state machine, found by name and named after the current time.
2. **The Preparer** stage assumes a role in the master account and a role in the member account. In the member account it provisions a private bucket with a timestamped name. It attaches a bucket policy letting the master account's role write objects and list the bucket, and copies the remediation template from the master bucket into the new bucket. It hands on a re-shaped state record.
3. **The Remediator** stage assumes the member role and launches the template as the CloudFormation stack `SHRemediator-<account>`. It passes the assumed role's ARN and the member's e-mail address as the two parameters. It reports the stack id, or null when the launch failed.
4. **The key-retirement utility** scans the member account's KMS aliases page by page. For the alias with the given name, it deletes the alias and schedules its target key for deletion after seven days. Every exception is swallowed.

Every backend is replaced by an abstract value that the model threads through pure functions:

| Backend | Abstract value |
|---|---|
| STS | the caller's ARN and a table of assumable roles with their trust conditions |
| S3 | the set of owned buckets, plus their public-access blocks, their policies and the objects |
| CloudFormation | the stacks by name, whether the service rejects the next create, and the id it would assign |
| KMS | the alias names, the keys, and the keys pending deletion |
| paged listings | a sequence of pages, plus whether fetching the next page fails |

Which calls fail is an input: a set of failing S3 operations, a `rejects` flag, or the `Faults` record. The clock is an input too, as a `DateTime` record.

Values read from events and state records are `PyValue.Json`. Python's `key in v`, `v[key]` and `str(v)` are modelled with their exceptions:
- `in` on a non-container raises `TypeError`;
- subscripting a non-dict raises `TypeError`;
- a missing key raises `KeyError`.

A raised exception is the `Err` side of `Py<T>`.

The modules are:
- `Wrappers`, `Text` (`str.split`/`join`, decimal digits), `Timestamp` (the two `strftime` formats), `PyValue` and `Paging`: support code.
- `Identity`: `assume_role`, shared by all four programs.
- `OpsBucket`: the Preparer.
- `Remediator`: the Remediator.
- `Launcher`: the launcher.
- `KeyRetirement`: the utility.
- `Workflow`: how the seed record, the Preparer and the Remediator fit together.

## Behaviour of the code worth noting

- `create_bucket_if_not_exists` returns True on every path that does not raise. This holds whether or not the bucket already existed, so the result does not mean "existed".
- An event that is not the trigger is not ignored. `get_sh_enabler_event` returns None, and `prepare_input` then raises `TypeError` subscripting it (`Launcher.LauncherHandler`).
- A failed stack launch is not surfaced. `launch_stack` swallows the exception, and the Remediator returns normally with a null `stack_id` (`Remediator.LaunchStack`, `Remediator.RelaunchReportsNull`).
- The Remediator launches into `member_region`, the key into which the Preparer copied `home_region`. The Preparer's record drops `home_region`, `master_account` and `sh_admin_account`.
- The execution name uses the 12-hour `%I` hour field. Two triggers twelve hours apart on the same day therefore get the same execution name (`Timestamp.Stamp12Collides`).
- The `break` in `start_workflow` leaves only the inner loop. When several pages hold a machine with the name, the last such page decides the ARN (`Launcher.SelectArn`).

## Model

| member | source | states |
|---|---|---|
| Text.JoinSplit | src/sh_ops_bucket.py:25 | Joining the fields of `s.split(sep)` with `sep` gives `s` back. |
| Text.SplitJoin | src/sh_ops_bucket.py:25 | Splitting a join of separator-free fields gives exactly those fields. |
| Text.SplitOneField | src/sh_ops_bucket.py:25 | `split` yields one field exactly when the separator does not occur, which is when `[1]` raises. |
| Timestamp.Hour12 | src/sh_remediator_sm_launcher.py:48 | The `%I` hour lies in 1..12 and agrees with the 24-hour hour modulo 12. |
| Timestamp.StampShape | src/sh_ops_bucket.py:218 | Both `%Y%m%d%H%M%S` and `%Y%m%d%I%M%S` print exactly fourteen decimal digits. |
| Timestamp.Stamp24RoundTrip | src/sh_ops_bucket.py:218 | Every field of the reading can be parsed back out of the 24-hour stamp. |
| Timestamp.Stamp24Injective | src/sh_ops_bucket.py:218 | Different seconds give different 24-hour stamps. |
| Timestamp.Stamp12Folds | src/sh_remediator_sm_launcher.py:48 | The 12-hour stamp is the 24-hour stamp of the reading with the hour folded onto 1..12. |
| Timestamp.Stamp12Collides | src/sh_remediator_sm_launcher.py:48 | Readings twelve hours apart on one day share a 12-hour stamp, although their 24-hour stamps differ. |
| PyValue.Contains | src/sh_remediator_sm_launcher.py:67-68 | `key in v` is key membership on a dict and raises `TypeError` exactly on `None`, booleans and numbers. |
| PyValue.Index | src/sh_remediator_sm_launcher.py:70-73 | `v[key]` succeeds exactly on a dict holding the key. Otherwise it raises `KeyError` on a dict and `TypeError` on anything else. |
| PyValue.ShowNumInjective | src/sh_remediator.py:50 | `str` of an integer determines the integer: different integers print differently. |
| PyValue.Get | src/sh_ops_bucket.py:209-219 | `event[key]` returns the stored value, or raises `KeyError(key)` exactly when the key is missing. |
| Identity.Partition | src/sh_ops_bucket.py:25 | `arn.split(":")[1]` succeeds exactly when the ARN contains a colon, and yields a colon-free field. Otherwise it raises `IndexError`. |
| Identity.RoleArnFields | src/sh_ops_bucket.py:27-29 | Splitting the built role ARN gives `arn`, the partition, `iam`, an empty field, the account and `role/<name>`. |
| Identity.RoleArnPartition | src/sh_ops_bucket.py:25-29 | The built role ARN lies in the partition of the caller's ARN. |
| Identity.AssumeRoleRequest | src/sh_ops_bucket.py:23-32 | A request is sent exactly when four things hold: the caller's ARN is known, it has a partition, the account is a string and the role is a string. When only the account or role fails that test, it raises `TypeError`. The external id is the org id, and the role ARN is in the caller's partition with the six expected fields. |
| Identity.AssumeRole | src/sh_remediator.py:24-41 | The exchange succeeds exactly when the request is sent, the derived role exists, the org id is a string, and the role's trust policy either demands exactly that external id or demands none. On success it reports that role's `AssumedRoleUser.Arn`; otherwise the call fails. |
| Identity.SessionNameNamesTarget | src/sh_ops_bucket.py:30 | The session name is the account, a dash, then the role name. |
| OpsBucket.EnsureBucket | src/sh_ops_bucket.py:41-80 | Returns exactly when the listing works and the bucket is either present or can be created and blocked. Returns True on every non-raising path, with the bucket owned afterwards. It sends list, create and block in that order and stops at a failure. A list failure, or a create failure for an absent bucket, raises. No other bucket, policy or object is touched. |
| OpsBucket.EnsureBucketCases | src/sh_ops_bucket.py:41-80 | A failed listing or a present bucket changes nothing and sends only the listing. An absent bucket is created private and then fully blocked. A failed block leaves the bucket created but unblocked. |
| OpsBucket.EnsureBucketIdempotent | src/sh_ops_bucket.py:41-80 | A second call leaves the store as the first left it. When listing and creation work, the second call only lists and returns True. |
| OpsBucket.BucketPolicy | src/sh_ops_bucket.py:83-119 | Version `2012-10-17`, id `bucket-policy-<member>`, and exactly two `Allow` statements, both for the master role in the `aws` partition. |
| OpsBucket.PolicyGrantsExactly | src/sh_ops_bucket.py:88-116 | A request is permitted exactly when it comes from the master role and is either (a) `s3:PutObject` on the bucket's objects with the owner-full-control ACL, or (b) `s3:ListBucket` on the bucket. |
| OpsBucket.AttachPolicy | src/sh_ops_bucket.py:120-130 | Sends one `put_bucket_policy`. It replaces the bucket's policy exactly when the call does not fail, and otherwise raises and changes nothing. |
| OpsBucket.CopyTemplate | src/sh_ops_bucket.py:154-170 | Sends one `copy_object` with the owner-full-control ACL exactly when the source bucket and key are strings. Otherwise the client raises `ParamValidationError` without sending. It adds the same key to the target bucket exactly when the call works, the source object exists and the target bucket is owned. Otherwise it raises and changes nothing. |
| OpsBucket.MemberBucketNameUnique | src/sh_ops_bucket.py:218 | The bucket name is the base, a dash and the 14-digit reading, which parses back to the clock value. Different seconds give different names. |
| OpsBucket.ReadPreparerInput | src/sh_ops_bucket.py:209-219 | The ten reads succeed exactly when all ten keys are present. Otherwise the raise is a `KeyError` naming a missing key. |
| OpsBucket.PreparerOutputFields | src/sh_ops_bucket.py:232-241 | The record handed on has exactly the eight keys, each holding the value read or derived for it. |
| OpsBucket.AssumeStageRoles | src/sh_ops_bucket.py:224-225 | Succeeds exactly when both the master and the member role can be assumed, which needs string accounts and role name. |
| OpsBucket.Publish | src/sh_ops_bucket.py:227-228 | Returns exactly when neither call fails, the template exists in the master bucket and the member bucket is owned. When the policy call works and the bucket and template names are strings, exactly the policy request and then the copy request are sent. When a name is not a string, only the policy is sent and the client raises `ParamValidationError`. A failed policy sends no copy. On success, the bucket carries the policy, holds the template, and exactly those two requests were sent. |
| OpsBucket.Provision | src/sh_ops_bucket.py:226-228 | Returns exactly when the bucket step returns, neither the policy nor the copy call fails, and the template exists. Requests follow the fixed order and stop at the first failure. On success the bucket is owned, carries the policy and holds the template, and the last two requests were the policy and the copy. |
| OpsBucket.ProvisionSendsInTurn | src/sh_ops_bucket.py:226-228 | Each step goes out exactly when the one before it returned: the policy exactly when the bucket step returned, and the copy exactly when the policy call returned as well and the source bucket and template names are strings. |
| OpsBucket.ProvisionStopsAtFailure | src/sh_ops_bucket.py:226-228 | A failed listing or creation sends no policy or copy. A failed policy sends no copy. Each of these raises, and so does a failed copy. |
| OpsBucket.Preparer | src/sh_ops_bucket.py:207-241 | A missing key raises `KeyError` before anything is sent. A successful run had every key and both roles. |
| OpsBucket.PreparerReturnsExactly | src/sh_ops_bucket.py:207-241 | The handler returns its record exactly when all ten keys are present, both roles can be assumed, the bucket step returns for the timestamped name, neither the policy nor the copy call fails, and the template exists in the master bucket. |
| OpsBucket.PreparerInOrder | src/sh_ops_bucket.py:224-228 | The handler's requests follow the fixed order. A raise after a request names the operation of the last request sent, unless the client refused the copy after the policy was sent. |
| OpsBucket.PreparerOutputShape | src/sh_ops_bucket.py:209-241 | The record has exactly eight keys. `member_region` comes from `home_region` and the bucket name is timestamped. `master_account`, `sh_admin_account` and `home_region` are absent. |
| OpsBucket.PreparerPassesThrough | src/sh_ops_bucket.py:232-241 | The other six fields of the input pass through unchanged. |
| OpsBucket.PreparerEffects | src/sh_ops_bucket.py:224-228 | After a successful run the timestamped bucket is owned, carries the policy for the accounts read, and holds the template copied from the master bucket. |
| OpsBucket.PreparerStopsAtFailure | src/sh_ops_bucket.py:226-228 | A failed listing sends no policy or copy, a failed policy sends no copy, and every such run raises. |
| Remediator.ReadRemediatorInput | src/sh_remediator.py:81-87 | The seven reads succeed exactly when all seven keys are present, returning their values. Otherwise it raises a `KeyError` naming a missing key. |
| Remediator.StackNamePerAccount | src/sh_remediator.py:50 | The stack name is `SHRemediator-` then the account. Two names are equal exactly when the accounts print alike. |
| Remediator.LaunchStack | src/sh_remediator.py:43-77 | Never raises. A stack id is returned exactly when the create call raises nothing: region and e-mail are strings, the service accepts, and no stack has the name. It is returned exactly when the service's stacks change, and it is the new stack's id. A taken name or a rejection gives None and changes nothing. What is sent is exactly the stack request built from the record; a non-string region or e-mail sends nothing. |
| Remediator.StackNameNumericAccounts | src/sh_remediator.py:50 | Accounts given as integers get different stack names whenever the integers differ. |
| Remediator.LaunchRequestContent | src/sh_remediator.py:50-72 | The request's exact content: name, template URL, endpoint and region, `CAPABILITY_NAMED_IAM`, `DO_NOTHING`, and exactly two parameters in order (the role ARN, then the unmodified e-mail). |
| Remediator.RemediatorOutput | src/sh_remediator.py:90-100 | The record returned has the seven keys read plus `stack_id`. |
| Remediator.Remediate | src/sh_remediator.py:79-100 | Returns normally exactly when the reads and the role assumption succeed. A raise sends nothing. Otherwise the run is the launch with the assumed role's ARN, and the returned record carries the launch's stack id. |
| Remediator.AdministratorIsAssumedRole | src/sh_remediator.py:88-89 | The `AdministratorARN` sent is the ARN reported for the member role, assumed with the org id as external id. |
| Remediator.RemediatorOutputShape | src/sh_remediator.py:90-100 | The seven fields pass through unchanged. `stack_id` is null exactly when no stack was created, and is otherwise the new stack's id. |
| Remediator.RemediatorOutputFields | src/sh_remediator.py:90-100 | Each output key holds its input value, and `stack_id` is null exactly when the launch returned None. |
| Remediator.RelaunchReportsNull | src/sh_remediator.py:66-77 | For an account that already has the stack, the run leaves the stacks alone. When it returns, it reports a null `stack_id`. |
| Launcher.ExtractTrigger | src/sh_remediator_sm_launcher.py:66-80 | Returns the member exactly for the trigger event, with account and e-mail copied from `serviceEventDetails.securityHubEnabledAccount`. Any raise is `TypeError` or `KeyError`. |
| Launcher.OtherEventsPassedOver | src/sh_remediator_sm_launcher.py:67-80 | A dict event is passed over without raising when it has no `detail`, or its `detail` has no `EventName` or names another event. |
| Launcher.MalformedTriggerRaises | src/sh_remediator_sm_launcher.py:69-73 | An event naming the trigger but lacking part of the member path raises. |
| Launcher.TestEventAccepted | test_event.py:12-21 | The test sender's payload, as `detail`, yields account `172489758104` and e-mail `sh@sh.com`. |
| Launcher.PrepareInput | src/sh_remediator_sm_launcher.py:82-105 | Raises `TypeError` exactly when there is no member. Otherwise the record has exactly the ten keys: the member's account and e-mail from the event, and the org id, role, master account, home region, master bucket, Security Hub administrator account, bucket base (untimestamped) and template name from configuration. |
| Launcher.FirstNamed | src/sh_remediator_sm_launcher.py:50-53 | The first machine of a page with the name, or none exactly when no machine of the page has it. |
| Launcher.SelectArnNamed | src/sh_remediator_sm_launcher.py:47-53 | The ARN is empty when no machine has the name. Otherwise it is the ARN of some machine with the name. |
| Launcher.SelectArnUnique | src/sh_remediator_sm_launcher.py:47-53 | With exactly one machine of that name, its ARN is selected. |
| Launcher.FindStateMachine | src/sh_remediator_sm_launcher.py:47-53 | The nested loops with the inner `break` compute `SelectArn`, in which the last page holding a match decides. |
| Launcher.ExecutionName | src/sh_remediator_sm_launcher.py:48 | The execution name is fourteen decimal digits. |
| Launcher.StartWorkflow | src/sh_remediator_sm_launcher.py:41-64 | Never raises. An execution is requested exactly when the listing does not fail, with the selected ARN, the 12-hour stamp and the seed record. |
| Launcher.LauncherHandler | src/sh_remediator_sm_launcher.py:107-114 | Returns normally exactly for the trigger event, and an event passed over raises `TypeError`. The execution started carries the selected ARN, the 12-hour name and the seed record. |
| KeyRetirement.FirstAlias | src/delete_kms_key.py:64-65 | The first alias of a page with the name, or none exactly when no alias of the page has it. |
| KeyRetirement.RetireAlias | src/delete_kms_key.py:65-80 | Only the named alias may go, and no key disappears. The schedule is sent, and a key becomes pending, only after the alias existed and was deleted. A rejected `delete_alias` raises, sends no schedule and changes nothing. Only the alias's target becomes pending, only if it is an existing key, for seven days, and pending periods are kept. The calls are none, the deletion, or the deletion then the schedule. |
| KeyRetirement.CaughtIsFinal | src/delete_kms_key.py:78-80 | Once an exception is raised, the remaining pages change nothing. |
| KeyRetirement.FindAlias | src/delete_kms_key.py:64-65 | The inner loop stops at the first alias with the name, as `FirstAlias` says. |
| KeyRetirement.DeleteKmsKey | src/delete_kms_key.py:58-80 | The loop over the pages computes `Retire`, the page-by-page fold that stops at the first swallowed exception. |
| KeyRetirement.RetireConfined | src/delete_kms_key.py:63-80 | Whatever the listing and faults, only the named alias is deleted and only existing keys it targets are scheduled, each for seven days and right after a deletion call. A schedule is sent only if deletions were not rejected, and then the alias existed before the scan and is gone after it; a newly pending key likewise means the alias existed and is gone. Other aliases, keys and pending periods are untouched. |
| KeyRetirement.DeleteRejectedSchedulesNothing | src/delete_kms_key.py:68-80 | When `delete_alias` is rejected, the scan changes nothing and sends at most one call, the deletion, after which it has stopped. |
| KeyRetirement.RetireNoMatch | src/delete_kms_key.py:63-77 | Without a matching alias, no call is made and nothing changes. |
| KeyRetirement.RetireUnique | src/delete_kms_key.py:63-77 | A unique alias with a live key is deleted, and exactly its key is scheduled for seven days, by exactly two calls in order. |
| KeyRetirement.ScheduleRejectedStrandsKey | src/delete_kms_key.py:68-80 | A rejected schedule after a successful delete leaves the alias gone and the key not pending. The exception is swallowed. |
| KeyRetirement.RetireMemberKey | src/delete_kms_key.py:82-89 | With the fixed org id and role, the scan runs exactly when the member role can be assumed, and it is `Retire` of the listing. |
| Workflow.SeedFeedsPreparer | src/sh_ops_bucket.py:209-219 | The launcher's seed record has every key the Preparer reads. The Preparer reads from it exactly the ten values the launcher put there: the member's account and e-mail, and the eight configuration values. |
| Workflow.PreparerFeedsRemediator | src/sh_remediator.py:81-87 | The Preparer's record has every key the Remediator reads: the home region as `member_region`, the timestamped bucket, and the rest unchanged. |
| Workflow.WorkflowLaunchesStack | src/sh_ops_bucket.py:224-241 | End to end: with no S3 call failing, every role assumable, the template in the master bucket, a string e-mail address, the stack service accepting the create and no stack yet for the member, the Preparer returns and the Remediator creates the member's stack and reports its id. |
| Workflow.SeedPreparerEffects | src/sh_ops_bucket.py:218-241 | When the Preparer returns on the seed record, the timestamped bucket is owned and holds the template. The record it hands on gives the Remediator exactly the configuration's org id, role and template name, the member's account and e-mail, the home region and that bucket. |
| Workflow.RemediatorSendsRead | src/sh_remediator.py:43-72 | A stack request the Remediator sends is built from the values it read: template URL, stack name, region and the e-mail parameter. |
| Workflow.FailedCopyLaunchesNothing | src/sh_ops_bucket.py:226-228 | When the template copy fails the Preparer raises, so no stack is launched. |
| Workflow.LaunchUsesPreparedTemplate | src/sh_remediator.py:50-72 | End to end, a launched stack takes its template from the object the Preparer copied into the bucket it owns. It is named after the member, in the home region, and notifies the member's e-mail address. |

## Left out

- boto3 sessions, clients and credentials are not modelled. Each service is an abstract value, and which calls fail is an input.
- The contents of responses beyond the fields the code reads are not modelled: `Location`, `executionArn`, and the printed JSON.
- `datetime.now()` is an input. Years before 1000 are excluded, because `%Y` would print them with fewer than four digits on some platforms.
- `json.dumps` of the bucket policy and of the execution input is not modelled. The policy is a datatype and the input is a record.
- `os.environ` is not read; the configuration is the `Config` record. A missing variable, which raises `KeyError`, is not modelled.
- Logging and `print` output are not modelled. They have no effect on state or results.
- `get_ct_regions`, `upload_template`, `download_template`, `list_kms_keys` and `json_serial` are not part of this model. They are file or remote I/O, or library-type formatting, and none lies on the workflow's path.
- `argparse` in the key-retirement utility is replaced by the two parameters it parses.
- In `send_test_event`, only the payload is used, as a witness. The `put_events` call is not modelled.
- The state machine's definition, which orders Preparer before Remediator, is not part of this model. `Workflow.RunWorkflow` assumes that order.
- AWS's own evaluation of bucket policies and its copying of objects are not modelled. `OpsBucket.PolicyGrantsExactly` reads the statements literally, without wildcards or other condition keys.
- Why the service rejects an argument is not modelled; any rejection is one `ClientError` per operation. Whether Step Functions accepts the execution is not modelled either: for example an empty ARN when no machine matched, or a repeated execution name. Only the request is.
- Listings are fixed before the scan. A deletion does not change pages fetched afterwards.
- PyValue.Show: lists and dicts are printed as fixed markers, not as Python's full `repr`. `member_account` is copied from the event and may be any JSON value, but in a full Remediator run it is a string when the stack name is built. The Remediator's `assume_role` (src/sh_remediator.py:31) first joins it to `-` with `+`, which raises `TypeError` for anything but a string. A list or dict reaches `Show` only when `LaunchStack` is applied on its own.
- Numbers in events are integers; floating point is not modelled.
- OpsBucket.CopyTemplate: the client's refusal of a non-string source bucket or key is one fault, `ParamValidationError`. Which exception class the library raises for each of the two is not distinguished.
- Remediator.LaunchStack: the client's own parameter validation is reduced to "region and e-mail are strings". The stack name and template URL are built with `format`, which accepts any value.

=== FILE: identity.dfy ===
/** The cross-account identity exchange every stage performs through
    `assume_role`: the role ARN is built in the caller's own partition, the
    session name is `<account>-<role>`, and the organization id is sent as the
    external id. The identity service itself is an abstract table of roles. */
module Identity {
  import opened Wrappers
  import opened Text
  import opened PyValue

  /** The parameters of one `sts.assume_role` request. */
  datatype AssumeRequest = AssumeRequest(roleArn: string, sessionName: string, externalId: Json)

  /** What a role's trust policy demands (an exact external id, or none at
      all), and the ARN an assumed session of it reports. */
  datatype Trust = Trust(externalId: Option<string>, userArn: string)

  /** Whether the trust policy admits a request carrying `externalId`. The
      client only sends a string; a policy without an external-id condition
      ignores the id sent. */
  predicate Admits(trust: Trust, externalId: Json) {
    externalId.Str? && (trust.externalId.None? || trust.externalId.value == externalId.s)
  }

  /** The identity service as one caller sees it: the caller's own ARN
      (`get_caller_identity`, which may fail) and the assumable roles by ARN. */
  datatype Sts = Sts(callerArn: Py<string>, roles: map<string, Trust>)

  /** A successful exchange: the request sent and `AssumedRoleUser.Arn` of the answer. */
  datatype Exchange = Exchange(request: AssumeRequest, userArn: string)

  /** The second `:`-separated field of an ARN, as `arn.split(":")[1]` reads it. */
  function Partition(arn: string): (r: Py<string>)
    ensures r.Ok? <==> ':' in arn
    ensures r.Err? ==> r.error == IndexError
    ensures r.Ok? ==> ':' !in r.value
  {
    var fields := Split(arn, ':');
    SplitOneField(arn, ':');
    if |fields| < 2 then Err(IndexError) else Ok(fields[1])
  }

  function RoleArn(partition: string, account: string, role: string): string {
    "arn:" + partition + ":iam::" + account + ":role/" + role
  }

  /** The fields of a role ARN, read back with `split(":")`. */
  lemma RoleArnFields(partition: string, account: string, role: string)
    requires ':' !in partition
    ensures ':' !in account && ':' !in role ==>
              Split(RoleArn(partition, account, role), ':') == ["arn", partition, "iam", "", account, "role/" + role]
  {
    if ':' in account || ':' in role { return; }
    var parts := ["arn", partition, "iam", "", account, "role/" + role];
    assert Join(parts[5..], ':') == "role/" + role;
    assert Join(parts[4..], ':') == account + ":role/" + role;
    assert Join(parts[3..], ':') == ":" + account + ":role/" + role;
    assert Join(parts[2..], ':') == "iam::" + account + ":role/" + role;
    assert Join(parts[1..], ':') == partition + ":iam::" + account + ":role/" + role;
    assert Join(parts, ':') == RoleArn(partition, account, role);
    SplitJoin(parts, ':');
  }

  /** Whatever the account and role, the built role ARN lies in the given partition. */
  lemma RoleArnPartition(partition: string, account: string, role: string)
    requires ':' !in partition
    ensures Partition(RoleArn(partition, account, role)) == Ok(partition)
  {
    var rest := "iam::" + account + ":role/" + role;
    assert RoleArn(partition, account, role) == "arn" + [':'] + (partition + [':'] + rest);
    SplitPrefix("arn", ':', partition + [':'] + rest);
    SplitPrefix(partition, ':', rest);
  }

  /** `assume_role(org_id, account, role_name)` up to the service call: the
      request it sends, or what it raises before sending one. */
  function AssumeRoleRequest(sts: Sts, orgId: Json, account: Json, role: Json): (r: Py<AssumeRequest>)
    ensures r.Ok? <==> sts.callerArn.Ok? && ':' in sts.callerArn.value && account.Str? && role.Str?
    ensures sts.callerArn.Ok? && ':' in sts.callerArn.value && !(account.Str? && role.Str?) ==> r == Err(TypeError)
    ensures r.Ok? ==> r.value.externalId == orgId
    ensures r.Ok? ==> Partition(r.value.roleArn) == Partition(sts.callerArn.value)
    ensures r.Ok? && ':' !in account.s && ':' !in role.s ==>
              Split(r.value.roleArn, ':') == ["arn", Partition(sts.callerArn.value).value, "iam", "", account.s, "role/" + role.s]
  {
    var caller :- sts.callerArn;
    var partition :- Partition(caller);
    RoleArnPartition(partition, Show(account), Show(role));
    if !(account.Str? && role.Str?) then Err(TypeError)
    else
      RoleArnFields(partition, account.s, role.s);
      Ok(AssumeRequest(RoleArn(partition, account.s, role.s), account.s + "-" + role.s, orgId))
  }

  /** The whole exchange: it succeeds exactly when the derived role exists and
      its trust policy admits the organization id that was sent. */
  function AssumeRole(sts: Sts, orgId: Json, account: Json, role: Json): (r: Py<Exchange>)
    ensures r.Ok? <==> (var q := AssumeRoleRequest(sts, orgId, account, role);
                         q.Ok? && q.value.roleArn in sts.roles && Admits(sts.roles[q.value.roleArn], orgId))
    ensures r.Ok? ==> r.value.request == AssumeRoleRequest(sts, orgId, account, role).value
    ensures r.Ok? ==> r.value.userArn == sts.roles[r.value.request.roleArn].userArn
    ensures AssumeRoleRequest(sts, orgId, account, role).Ok? && r.Err? ==> r.error == ClientError("AssumeRole")
  {
    var request :- AssumeRoleRequest(sts, orgId, account, role);
    if request.roleArn in sts.roles && Admits(sts.roles[request.roleArn], orgId)
    then Ok(Exchange(request, sts.roles[request.roleArn].userArn))
    else Err(ClientError("AssumeRole"))
  }

  /** The session name carries the account and the role, joined by `-`. */
  lemma SessionNameNamesTarget(sts: Sts, orgId: Json, account: Json, role: Json)
    requires AssumeRoleRequest(sts, orgId, account, role).Ok?
    ensures var name := AssumeRoleRequest(sts, orgId, account, role).value.sessionName;
            |name| == |account.s| + 1 + |role.s| && name[..|account.s|] == account.s
            && name[|account.s|] == '-' && name[|account.s| + 1..] == role.s
  {
  }
}

=== FILE: key_retirement.dfy ===
/** The key-retirement utility: scan the member account's KMS aliases page by
    page, and for the alias with the given name delete the alias and schedule
    its target key for deletion after seven days. Any exception ends the scan
    and is swallowed. */
module KeyRetirement {
  import opened Wrappers
  import opened PyValue
  import opened Identity
  import opened Paging

  /** One entry of `list_aliases`; AWS-managed aliases may have no target. */
  datatype Alias = Alias(aliasName: string, targetKeyId: Option<string>)

  /** The KMS state the utility changes: the alias names that exist, the keys
      that exist, and the keys pending deletion with their waiting period. */
  datatype Kms = Kms(aliases: set<string>, keys: set<string>, pending: map<string, nat>)

  datatype Call = DeleteAlias(aliasName: string) | ScheduleKeyDeletion(keyId: string, pendingWindowInDays: nat)

  /** Which of the two mutating calls the service rejects regardless of state. */
  datatype Faults = Faults(deleteFails: bool, scheduleFails: bool)

  const PendingWindowInDays: nat := 7

  /** The state after the scan, the calls issued in order, and whether the scan
      ended in a swallowed exception. */
  datatype Retirement = Retirement(kms: Kms, calls: seq<Call>, caught: bool)

  /** The position of the first alias of a page with the given name. */
  function FirstAlias(page: seq<Alias>, name: string): (r: Option<nat>)
    ensures r.Some? ==> r.value < |page| && page[r.value].aliasName == name
    ensures r.Some? ==> forall k :: 0 <= k < r.value ==> page[k].aliasName != name
    ensures r.None? <==> forall k :: 0 <= k < |page| ==> page[k].aliasName != name
    decreases |page|
  {
    if |page| == 0 then None
    else if page[0].aliasName == name then Some(0)
    else match FirstAlias(page[1..], name)
      case None => None
      case Some(k) => Some(k + 1)
  }

  /** Retiring one matching alias: read its target (a missing one raises),
      delete the alias, then schedule the key's deletion. The alias must exist
      to be deleted; the key must exist and not already be pending. */
  function RetireAlias(st: Retirement, alias: Alias, faults: Faults): (r: Retirement)
    requires !st.caught
    ensures r.kms.keys == st.kms.keys
    ensures r.kms.aliases == st.kms.aliases || r.kms.aliases == st.kms.aliases - {alias.aliasName}
    ensures forall key :: key in st.kms.pending ==> key in r.kms.pending && r.kms.pending[key] == st.kms.pending[key]
    // Only the alias's target can become pending, and only if it is an existing key.
    ensures forall key :: key in r.kms.pending && key !in st.kms.pending ==>
              alias.targetKeyId == Some(key) && r.kms.pending[key] == PendingWindowInDays && key in st.kms.keys
    ensures || r.calls == st.calls
            || r.calls == st.calls + [DeleteAlias(alias.aliasName)]
            || (alias.targetKeyId.Some? &&
                r.calls == st.calls + [DeleteAlias(alias.aliasName), ScheduleKeyDeletion(alias.targetKeyId.value, PendingWindowInDays)])
    // A raising `delete_alias` skips the schedule: the schedule goes out, and a
    // key becomes pending, only after the alias was really deleted.
    ensures |r.calls| == |st.calls| + 2 ==>
              && !faults.deleteFails && alias.aliasName in st.kms.aliases
              && r.kms.aliases == st.kms.aliases - {alias.aliasName}
    ensures forall key :: key in r.kms.pending && key !in st.kms.pending ==>
              && !faults.deleteFails && alias.aliasName in st.kms.aliases
              && r.kms.aliases == st.kms.aliases - {alias.aliasName}
    ensures faults.deleteFails ==> r.kms == st.kms && r.caught && |r.calls| <= |st.calls| + 1
  {
    match alias.targetKeyId
    case None => st.(caught := true)
    case Some(keyId) =>
      var deleted := st.calls + [DeleteAlias(alias.aliasName)];
      if faults.deleteFails || alias.aliasName !in st.kms.aliases then Retirement(st.kms, deleted, true)
      else
        var kms := st.kms.(aliases := st.kms.aliases - {alias.aliasName});
        var scheduled := deleted + [ScheduleKeyDeletion(keyId, PendingWindowInDays)];
        if faults.scheduleFails || keyId !in kms.keys || keyId in kms.pending then Retirement(kms, scheduled, true)
        else Retirement(kms.(pending := kms.pending[keyId := PendingWindowInDays]), scheduled, false)
  }

  /** One page of the outer loop: the inner loop retires the page's first
      match and breaks. Nothing runs once an exception has been raised. */
  function RetirePage(st: Retirement, page: seq<Alias>, keyAlias: string, faults: Faults): Retirement {
    if st.caught then st
    else match FirstAlias(page, keyAlias)
      case None => st
      case Some(k) => RetireAlias(st, page[k], faults)
  }

  /** The pages in order, folded from the left. */
  function RetirePages(pages: seq<seq<Alias>>, keyAlias: string, kms: Kms, faults: Faults): Retirement
    decreases |pages|
  {
    if |pages| == 0 then Retirement(kms, [], false)
    else RetirePage(RetirePages(pages[..|pages| - 1], keyAlias, kms, faults), pages[|pages| - 1], keyAlias, faults)
  }

  /** The whole scan: a failing page fetch raises, which is swallowed too. */
  function Retire(listing: Paged<Alias>, keyAlias: string, kms: Kms, faults: Faults): Retirement {
    var r := RetirePages(listing.pages, keyAlias, kms, faults);
    if listing.fails then r.(caught := true) else r
  }

  /** Once an exception is raised, later pages change nothing. */
  lemma {:induction false} CaughtIsFinal(pages: seq<seq<Alias>>, n: nat, keyAlias: string, kms: Kms, faults: Faults)
    requires n <= |pages|
    requires RetirePages(pages[..n], keyAlias, kms, faults).caught
    ensures RetirePages(pages, keyAlias, kms, faults) == RetirePages(pages[..n], keyAlias, kms, faults)
    decreases |pages| - n
  {
    if n == |pages| {
      assert pages[..n] == pages;
    } else {
      var m := |pages| - 1;
      assert pages[..m][..n] == pages[..n];
      CaughtIsFinal(pages[..m], n, keyAlias, kms, faults);
    }
  }

  /** The inner loop of `delete_kms_key`: the first alias of the page with
      the name, where the loop breaks. */
  method FindAlias(page: seq<Alias>, keyAlias: string) returns (found: Option<nat>)
    ensures found == FirstAlias(page, keyAlias)
  {
    var j := 0;
    while j < |page|
      invariant 0 <= j <= |page|
      invariant forall k :: 0 <= k < j ==> page[k].aliasName != keyAlias
    {
      if page[j].aliasName == keyAlias {
        return Some(j);
      }
      j := j + 1;
    }
    return None;
  }

  /** The body of the outer loop for one page: the inner loop finds the
      page's first match, which is then retired. */
  method ScanPage(st: Retirement, page: seq<Alias>, keyAlias: string, faults: Faults) returns (r: Retirement)
    requires !st.caught
    ensures r == RetirePage(st, page, keyAlias, faults)
  {
    var found := FindAlias(page, keyAlias);
    r := st;
    if found.Some? {
      r := RetireAlias(st, page[found.value], faults);
    }
  }

  /** `delete_kms_key`: the outer loop over the pages; an exception ends it. */
  method DeleteKmsKey(listing: Paged<Alias>, keyAlias: string, kms0: Kms, faults: Faults) returns (r: Retirement)
    ensures r == Retire(listing, keyAlias, kms0, faults)
  {
    var pages := listing.pages;
    var kms := kms0;
    var calls: seq<Call> := [];
    var caught := false;
    var i := 0;
    while i < |pages| && !caught
      invariant 0 <= i <= |pages|
      invariant RetirePages(pages[..i], keyAlias, kms0, faults) == Retirement(kms, calls, caught)
    {
      var page := pages[i];
      assert pages[..i + 1][..i] == pages[..i];
      var st := ScanPage(Retirement(kms, calls, false), page, keyAlias, faults);
      kms, calls, caught := st.kms, st.calls, st.caught;
      i := i + 1;
    }
    if caught {
      CaughtIsFinal(pages, i, keyAlias, kms0, faults);
    } else {
      assert pages[..i] == pages;
    }
    r := Retirement(kms, calls, caught || listing.fails);
  }

  predicate NoAliasNamed(pages: seq<seq<Alias>>, name: string) {
    forall i, j :: 0 <= i < |pages| && 0 <= j < |pages[i]| ==> pages[i][j].aliasName != name
  }

  /** Some alias of the listing has this name and target. */
  predicate Listed(pages: seq<seq<Alias>>, alias: Alias) {
    exists i, j :: 0 <= i < |pages| && 0 <= j < |pages[i]| && pages[i][j] == alias
  }

  lemma ListedExtends(pages: seq<seq<Alias>>, page: seq<Alias>)
    ensures forall a :: Listed(pages, a) ==> Listed(pages + [page], a)
    ensures forall k :: 0 <= k < |page| ==> Listed(pages + [page], page[k])
  {
    var all := pages + [page];
    forall a | Listed(pages, a)
      ensures Listed(all, a)
    {
      var i, j :| 0 <= i < |pages| && 0 <= j < |pages[i]| && pages[i][j] == a;
      assert all[i][j] == a;
    }
    forall k | 0 <= k < |page|
      ensures Listed(all, page[k])
    {
      assert all[|pages|][k] == page[k];
    }
  }

  /** The state a scan may leave: only the named alias is removed, only
      existing keys some alias of that name targets become pending, always for
      seven days, and keys already pending keep their period. */
  predicate KmsConfined(pages: seq<seq<Alias>>, keyAlias: string, kms: Kms, after: Kms) {
    && after.keys == kms.keys
    && after.aliases - {keyAlias} == kms.aliases - {keyAlias}
    && after.aliases <= kms.aliases
    && (forall key :: key in kms.pending ==> key in after.pending && after.pending[key] == kms.pending[key])
    && (forall key :: key in after.pending && key !in kms.pending ==>
          && after.pending[key] == PendingWindowInDays && Listed(pages, Alias(keyAlias, Some(key)))
          && key in kms.keys && keyAlias in kms.aliases && keyAlias !in after.aliases)
  }

  /** The calls a scan may issue: deletions of the named alias only, and
      seven-day schedules of a key the named alias targets, each directly
      after a deletion call. */
  predicate CallsConfined(pages: seq<seq<Alias>>, keyAlias: string, calls: seq<Call>) {
    && (forall n :: 0 <= n < |calls| && calls[n].DeleteAlias? ==> calls[n] == DeleteAlias(keyAlias))
    && (forall n :: 0 <= n < |calls| && calls[n].ScheduleKeyDeletion? ==>
          && calls[n].pendingWindowInDays == PendingWindowInDays
          && 0 < n && calls[n - 1] == DeleteAlias(keyAlias)
          && Listed(pages, Alias(keyAlias, Some(calls[n].keyId))))
  }

  /** A schedule was sent only if that deletion call succeeded: deletions were
      not being rejected, and the alias existed before the scan and is gone after it. */
  predicate ScheduledAfterDeletion(keyAlias: string, kms: Kms, faults: Faults, r: Retirement) {
    forall n :: 0 <= n < |r.calls| && r.calls[n].ScheduleKeyDeletion? ==>
      !faults.deleteFails && keyAlias in kms.aliases && keyAlias !in r.kms.aliases
  }

  predicate Confined(pages: seq<seq<Alias>>, keyAlias: string, kms: Kms, faults: Faults, r: Retirement) {
    && KmsConfined(pages, keyAlias, kms, r.kms) && CallsConfined(pages, keyAlias, r.calls)
    && ScheduledAfterDeletion(keyAlias, kms, faults, r)
  }

  lemma KmsConfinedExtends(pages: seq<seq<Alias>>, page: seq<Alias>, keyAlias: string, kms: Kms, r: Retirement, faults: Faults)
    requires KmsConfined(pages, keyAlias, kms, r.kms)
    ensures KmsConfined(pages + [page], keyAlias, kms, RetirePage(r, page, keyAlias, faults).kms)
  {
    ListedExtends(pages, page);
  }

  lemma CallsConfinedExtends(pages: seq<seq<Alias>>, page: seq<Alias>, keyAlias: string, r: Retirement, faults: Faults)
    requires CallsConfined(pages, keyAlias, r.calls)
    ensures CallsConfined(pages + [page], keyAlias, RetirePage(r, page, keyAlias, faults).calls)
  {
    ListedExtends(pages, page);
    if !r.caught && FirstAlias(page, keyAlias).Some? {
      var k := FirstAlias(page, keyAlias).value;
      var s := RetireAlias(r, page[k], faults);
      forall n | 0 <= n < |s.calls| && n < |r.calls|
        ensures s.calls[n] == r.calls[n]
      {
      }
    }
  }

  lemma ScheduledAfterDeletionExtends(page: seq<Alias>, keyAlias: string, kms: Kms, r: Retirement, faults: Faults)
    requires r.kms.aliases <= kms.aliases
    requires ScheduledAfterDeletion(keyAlias, kms, faults, r)
    ensures ScheduledAfterDeletion(keyAlias, kms, faults, RetirePage(r, page, keyAlias, faults))
  {
    if !r.caught && FirstAlias(page, keyAlias).Some? {
      var k := FirstAlias(page, keyAlias).value;
      var s := RetireAlias(r, page[k], faults);
      forall n | 0 <= n < |s.calls| && s.calls[n].ScheduleKeyDeletion?
        ensures !faults.deleteFails && keyAlias in kms.aliases && keyAlias !in s.kms.aliases
      {
        if n < |r.calls| {
          assert s.calls[n] == r.calls[n];
        } else {
          assert |s.calls| == |r.calls| + 2;
        }
      }
    }
  }

  /** Whatever the listing, the faults and the state, a scan is `Confined`. */
  lemma {:induction false} RetireConfined(pages: seq<seq<Alias>>, keyAlias: string, kms: Kms, faults: Faults)
    ensures Confined(pages, keyAlias, kms, faults, RetirePages(pages, keyAlias, kms, faults))
    decreases |pages|
  {
    if |pages| > 0 {
      var init := pages[..|pages| - 1];
      RetireConfined(init, keyAlias, kms, faults);
      assert init + [pages[|pages| - 1]] == pages;
      var r := RetirePages(init, keyAlias, kms, faults);
      KmsConfinedExtends(init, pages[|pages| - 1], keyAlias, kms, r, faults);
      CallsConfinedExtends(init, pages[|pages| - 1], keyAlias, r, faults);
      ScheduledAfterDeletionExtends(pages[|pages| - 1], keyAlias, kms, r, faults);
    }
  }

  /** When `delete_alias` is rejected, nothing changes: the first matching
      alias raises at its deletion, so no schedule is ever sent. */
  lemma {:induction false} DeleteRejectedSchedulesNothing(pages: seq<seq<Alias>>, keyAlias: string, kms: Kms, scheduleFails: bool)
    ensures var r := RetirePages(pages, keyAlias, kms, Faults(true, scheduleFails));
            r.kms == kms && (r.calls == [] || (r.calls == [DeleteAlias(keyAlias)] && r.caught))
    decreases |pages|
  {
    if |pages| > 0 {
      var faults := Faults(true, scheduleFails);
      DeleteRejectedSchedulesNothing(pages[..|pages| - 1], keyAlias, kms, scheduleFails);
      var r := RetirePages(pages[..|pages| - 1], keyAlias, kms, faults);
      var page := pages[|pages| - 1];
      if !r.caught && FirstAlias(page, keyAlias).Some? {
        assert page[FirstAlias(page, keyAlias).value].aliasName == keyAlias;
      }
    }
  }

  /** A listing without the alias changes nothing and issues no call. */
  lemma {:induction false} RetireNoMatch(pages: seq<seq<Alias>>, keyAlias: string, kms: Kms, faults: Faults)
    requires NoAliasNamed(pages, keyAlias)
    ensures RetirePages(pages, keyAlias, kms, faults) == Retirement(kms, [], false)
    decreases |pages|
  {
    if |pages| > 0 {
      var init := pages[..|pages| - 1];
      assert NoAliasNamed(init, keyAlias) by {
        forall i, j | 0 <= i < |init| && 0 <= j < |init[i]|
          ensures init[i][j].aliasName != keyAlias
        {
          assert init[i][j] == pages[i][j];
        }
      }
      RetireNoMatch(init, keyAlias, kms, faults);
      var last := pages[|pages| - 1];
      assert FirstAlias(last, keyAlias).None? by {
        forall k | 0 <= k < |last|
          ensures last[k].aliasName != keyAlias
        {
          assert pages[|pages| - 1][k] == last[k];
        }
      }
    }
  }

  /** The alias appears once, targets an existing key that is not pending, and
      neither call is rejected: exactly the alias is deleted and exactly its
      key is scheduled for deletion in seven days, with two calls in order. */
  lemma RetireUnique(pages: seq<seq<Alias>>, keyAlias: string, keyId: string, kms: Kms, i: nat, j: nat)
    requires i < |pages| && j < |pages[i]| && pages[i][j] == Alias(keyAlias, Some(keyId))
    requires forall a, b :: 0 <= a < |pages| && 0 <= b < |pages[a]| && pages[a][b].aliasName == keyAlias ==> a == i && b == j
    requires keyAlias in kms.aliases && keyId in kms.keys && keyId !in kms.pending
    ensures RetirePages(pages, keyAlias, kms, Faults(false, false)) ==
            Retirement(
              Kms(kms.aliases - {keyAlias}, kms.keys, kms.pending[keyId := PendingWindowInDays]),
              [DeleteAlias(keyAlias), ScheduleKeyDeletion(keyId, PendingWindowInDays)],
              false)
  {
    var faults := Faults(false, false);
    var before := pages[..i];
    assert NoAliasNamed(before, keyAlias) by {
      forall a, b | 0 <= a < |before| && 0 <= b < |before[a]|
        ensures before[a][b].aliasName != keyAlias
      {
        assert before[a][b] == pages[a][b];
      }
    }
    RetireNoMatch(before, keyAlias, kms, faults);
    var page := pages[i];
    assert FirstAlias(page, keyAlias) == Some(j);
    assert pages[..i + 1][..i] == before;
    var done := Retirement(
      Kms(kms.aliases - {keyAlias}, kms.keys, kms.pending[keyId := PendingWindowInDays]),
      [DeleteAlias(keyAlias), ScheduleKeyDeletion(keyId, PendingWindowInDays)],
      false);
    assert RetirePages(pages[..i + 1], keyAlias, kms, faults) == done;
    RetireUniqueTail(pages, keyAlias, kms, faults, i + 1, done);
  }

  lemma {:induction false} RetireUniqueTail(pages: seq<seq<Alias>>, keyAlias: string, kms: Kms, faults: Faults, n: nat, done: Retirement)
    requires n <= |pages|
    requires forall a, b :: n <= a < |pages| && 0 <= b < |pages[a]| ==> pages[a][b].aliasName != keyAlias
    requires RetirePages(pages[..n], keyAlias, kms, faults) == done
    ensures RetirePages(pages, keyAlias, kms, faults) == done
    decreases |pages| - n
  {
    if n == |pages| {
      assert pages[..n] == pages;
    } else {
      var m := |pages| - 1;
      assert pages[..m][..n] == pages[..n];
      RetireUniqueTail(pages[..m], keyAlias, kms, faults, n, done);
      assert FirstAlias(pages[m], keyAlias).None?;
    }
  }

  /** A rejected schedule after a successful delete leaves the alias gone and
      the key not pending: the two calls are not one transaction. */
  lemma ScheduleRejectedStrandsKey(pages: seq<seq<Alias>>, keyAlias: string, keyId: string, kms: Kms, i: nat, j: nat)
    requires i < |pages| && j < |pages[i]| && pages[i][j] == Alias(keyAlias, Some(keyId))
    requires forall a, b :: 0 <= a < |pages| && 0 <= b < |pages[a]| && pages[a][b].aliasName == keyAlias ==> a == i && b == j
    requires keyAlias in kms.aliases && keyId !in kms.pending
    ensures var r := RetirePages(pages, keyAlias, kms, Faults(false, true));
            && r.caught && keyAlias !in r.kms.aliases && keyId !in r.kms.pending
            && r.calls == [DeleteAlias(keyAlias), ScheduleKeyDeletion(keyId, PendingWindowInDays)]
  {
    var faults := Faults(false, true);
    var before := pages[..i];
    assert NoAliasNamed(before, keyAlias) by {
      forall a, b | 0 <= a < |before| && 0 <= b < |before[a]|
        ensures before[a][b].aliasName != keyAlias
      {
        assert before[a][b] == pages[a][b];
      }
    }
    RetireNoMatch(before, keyAlias, kms, faults);
    assert FirstAlias(pages[i], keyAlias) == Some(j);
    assert pages[..i + 1][..i] == before;
    CaughtIsFinal(pages, i + 1, keyAlias, kms, faults);
  }

  /** Organization id and role the utility's entry point uses. */
  const UtilityOrgId := "o-a4tlobvmc0"
  const UtilityRole := "AWSControlTowerExecution"

  /** `main`: assume the fixed role in the member account (a failure raises),
      then run the scan there. */
  method RetireMemberKey(sts: Sts, account: string, keyAlias: string, listing: Paged<Alias>, kms: Kms, faults: Faults)
    returns (r: Py<Retirement>)
    ensures r.Ok? <==> AssumeRole(sts, Str(UtilityOrgId), Str(account), Str(UtilityRole)).Ok?
    ensures r.Ok? ==> r.value == Retire(listing, keyAlias, kms, faults)
  {
    var exchange := AssumeRole(sts, Str(UtilityOrgId), Str(account), Str(UtilityRole));
    if exchange.Err? {
      return Err(exchange.error);
    }
    var done := DeleteKmsKey(listing, keyAlias, kms, faults);
    return Ok(done);
  }
}

=== FILE: launcher.dfy ===
/** The launcher: recognise the "Security Hub enabled" event, build the seed
    state record from the launcher's configuration and the member named in the
    event, find the workflow's state machine by name and start an execution of
    it named after the current time. */
module Launcher {
  import opened Wrappers
  import opened PyValue
  import opened Timestamp
  import opened Paging
  import opened Text

  /** The launcher's environment variables. */
  datatype Config = Config(
    orgId: string,
    assumeRole: string,
    masterAccount: string,
    homeRegion: string,
    masterBucket: string,
    shAdminAccount: string,
    memberBucket: string,
    cfnTemplateName: string,
    smName: string)

  /** The member account and its notification address, as found in the event. */
  datatype MemberData = MemberData(memberAccount: Json, memberEmail: Json)

  const TriggerEventName := "SecurityHubEnabled"

  /** The trigger event as the source recognises it: a `detail` dict whose
      `EventName` is the trigger name, carrying the member under
      `serviceEventDetails.securityHubEnabledAccount`. */
  predicate IsTriggerEvent(event: Json) {
    && event.Obj? && "detail" in event.fields
    && var detail := event.fields["detail"];
       && detail.Obj? && "EventName" in detail.fields && detail.fields["EventName"] == Str(TriggerEventName)
       && "serviceEventDetails" in detail.fields
       && var service := detail.fields["serviceEventDetails"];
          && service.Obj? && "securityHubEnabledAccount" in service.fields
          && var member := service.fields["securityHubEnabledAccount"];
             && member.Obj? && "member_account" in member.fields && "member_email" in member.fields
  }

  /** The member record of an event `IsTriggerEvent` accepts. */
  function TriggerMember(event: Json): Json
    requires IsTriggerEvent(event)
  {
    event.fields["detail"].fields["serviceEventDetails"].fields["securityHubEnabledAccount"]
  }

  /** `get_sh_enabler_event`: `Some` for the trigger, `None` when the event
      carries no `detail`, no `EventName` or another name, and whatever the
      dictionary accesses raise on a trigger of the wrong shape. */
  function ExtractTrigger(event: Json): (r: Py<Option<MemberData>>)
    ensures r.Ok? && r.value.Some? <==> IsTriggerEvent(event)
    ensures r.Ok? && r.value.Some? ==>
              var member := TriggerMember(event);
              r.value.value == MemberData(member.fields["member_account"], member.fields["member_email"])
    ensures r.Err? ==> r.error == TypeError || r.error.KeyError?
  {
    var hasDetail :- Contains(event, "detail");
    if !hasDetail then Ok(None)
    else
      var detail :- Index(event, "detail");
      var hasName :- Contains(detail, "EventName");
      if !hasName then Ok(None)
      else
        var name :- Index(detail, "EventName");
        if name != Str(TriggerEventName) then Ok(None)
        else
          var service :- Index(detail, "serviceEventDetails");
          var member :- Index(service, "securityHubEnabledAccount");
          var account :- Index(member, "member_account");
          var email :- Index(member, "member_email");
          Ok(Some(MemberData(account, email)))
  }

  /** A dict event without `detail`, or whose `detail` dict has no
      `EventName` or names another event, is passed over without raising. */
  lemma OtherEventsPassedOver(event: Json)
    requires event.Obj?
    requires || "detail" !in event.fields
             || (var detail := event.fields["detail"];
                 detail.Obj? && ("EventName" !in detail.fields || detail.fields["EventName"] != Str(TriggerEventName)))
    ensures ExtractTrigger(event) == Ok(None)
  {
  }

  /** A dict event that names the trigger but lacks part of the member path
      raises instead of being passed over. */
  lemma MalformedTriggerRaises(event: Json)
    requires event.Obj? && "detail" in event.fields
    requires var detail := event.fields["detail"];
             detail.Obj? && "EventName" in detail.fields && detail.fields["EventName"] == Str(TriggerEventName)
    requires !IsTriggerEvent(event)
    ensures ExtractTrigger(event).Err?
  {
  }

  /** The `detail` of the event the test sender publishes. */
  function TestEventDetail(): Json {
    Obj(map[
      "EventName" := Str("SecurityHubEnabled"),
      "Message" := Str("SecurityHub enabled on Account"),
      "serviceEventDetails" := Obj(map[
        "securityHubEnabledAccount" := Obj(map[
          "member_account" := Str("172489758104"),
          "member_email" := Str("sh@sh.com")])])])
  }

  /** The launcher accepts the test sender's event and reads its member. */
  lemma TestEventAccepted()
    ensures ExtractTrigger(Obj(map["detail" := TestEventDetail()]))
            == Ok(Some(MemberData(Str("172489758104"), Str("sh@sh.com"))))
  {
    var event := Obj(map["detail" := TestEventDetail()]);
    assert IsTriggerEvent(event);
  }

  /** The keys of the seed record. */
  const SeedKeys: set<string> := {
    "org_id", "assume_role", "master_account", "home_region", "master_bucket",
    "member_account", "member_email", "sh_admin_account", "member_bucket", "cfn_template_name"}

  /** `prepare_input`: subscripting the member data raises when the event was
      not the trigger (`None`). */
  function PrepareInput(cfg: Config, member: Option<MemberData>): (r: Py<Record>)
    ensures r.Ok? <==> member.Some?
    ensures r.Err? ==> r.error == TypeError
    ensures r.Ok? ==>
              && r.value.Keys == SeedKeys
              && r.value["member_account"] == member.value.memberAccount
              && r.value["member_email"] == member.value.memberEmail
              && r.value["member_bucket"] == Str(cfg.memberBucket)
              && r.value["org_id"] == Str(cfg.orgId)
              && r.value["assume_role"] == Str(cfg.assumeRole)
              && r.value["master_account"] == Str(cfg.masterAccount)
              && r.value["home_region"] == Str(cfg.homeRegion)
              && r.value["master_bucket"] == Str(cfg.masterBucket)
              && r.value["sh_admin_account"] == Str(cfg.shAdminAccount)
              && r.value["cfn_template_name"] == Str(cfg.cfnTemplateName)
  {
    match member
    case None => Err(TypeError)
    case Some(m) =>
      Ok(map[
        "org_id" := Str(cfg.orgId),
        "assume_role" := Str(cfg.assumeRole),
        "master_account" := Str(cfg.masterAccount),
        "home_region" := Str(cfg.homeRegion),
        "master_bucket" := Str(cfg.masterBucket),
        "member_account" := m.memberAccount,
        "member_email" := m.memberEmail,
        "sh_admin_account" := Str(cfg.shAdminAccount),
        "member_bucket" := Str(cfg.memberBucket),
        "cfn_template_name" := Str(cfg.cfnTemplateName)])
  }

  datatype Machine = Machine(name: string, stateMachineArn: string)

  /** The position of the first machine of a page with the given name. */
  function FirstNamed(page: seq<Machine>, name: string): (r: Option<nat>)
    ensures r.Some? ==> r.value < |page| && page[r.value].name == name
    ensures r.Some? ==> forall k :: 0 <= k < r.value ==> page[k].name != name
    ensures r.None? <==> forall k :: 0 <= k < |page| ==> page[k].name != name
    decreases |page|
  {
    if |page| == 0 then None
    else if page[0].name == name then Some(0)
    else match FirstNamed(page[1..], name)
      case None => None
      case Some(k) => Some(k + 1)
  }

  /** The ARN the scan settles on: the inner loop stops at the first match of
      a page but the outer loop goes on, so the last page holding a match
      decides; empty when no machine has the name. */
  function SelectArn(pages: seq<seq<Machine>>, name: string): (arn: string)
    decreases |pages|
  {
    if |pages| == 0 then ""
    else
      var last := pages[|pages| - 1];
      match FirstNamed(last, name)
      case Some(k) => last[k].stateMachineArn
      case None => SelectArn(pages[..|pages| - 1], name)
  }

  predicate NoMachineNamed(pages: seq<seq<Machine>>, name: string) {
    forall i, j :: 0 <= i < |pages| && 0 <= j < |pages[i]| ==> pages[i][j].name != name
  }

  /** The selected ARN is empty when no machine has the name, and otherwise
      belongs to a machine with the name. */
  lemma {:induction false} SelectArnNamed(pages: seq<seq<Machine>>, name: string)
    ensures NoMachineNamed(pages, name) ==> SelectArn(pages, name) == ""
    ensures !NoMachineNamed(pages, name) ==>
              exists i, j :: 0 <= i < |pages| && 0 <= j < |pages[i]| && pages[i][j].name == name
                             && SelectArn(pages, name) == pages[i][j].stateMachineArn
    decreases |pages|
  {
    if |pages| > 0 {
      var init := pages[..|pages| - 1];
      var last := pages[|pages| - 1];
      SelectArnNamed(init, name);
      match FirstNamed(last, name)
      case Some(k) =>
        assert pages[|pages| - 1][k].name == name;
      case None =>
        if !NoMachineNamed(pages, name) {
          assert !NoMachineNamed(init, name) by {
            var i, j :| 0 <= i < |pages| && 0 <= j < |pages[i]| && pages[i][j].name == name;
            assert i < |pages| - 1;
            assert init[i][j].name == name;
          }
          var i, j :| 0 <= i < |init| && 0 <= j < |init[i]| && init[i][j].name == name
                      && SelectArn(init, name) == init[i][j].stateMachineArn;
          assert pages[i][j] == init[i][j];
        } else {
          assert NoMachineNamed(init, name) by {
            forall i, j | 0 <= i < |init| && 0 <= j < |init[i]|
              ensures init[i][j].name != name
            {
              assert init[i][j] == pages[i][j];
            }
          }
        }
    }
  }

  /** When exactly one machine has the name, the scan finds its ARN. */
  lemma SelectArnUnique(pages: seq<seq<Machine>>, name: string, i: nat, j: nat)
    requires i < |pages| && j < |pages[i]| && pages[i][j].name == name
    requires forall a, b :: 0 <= a < |pages| && 0 <= b < |pages[a]| && pages[a][b].name == name ==> a == i && b == j
    ensures SelectArn(pages, name) == pages[i][j].stateMachineArn
  {
    SelectArnNamed(pages, name);
  }

  /** The loop of `start_workflow` over the pages of `list_state_machines`. */
  method FindStateMachine(pages: seq<seq<Machine>>, name: string) returns (arn: string)
    ensures arn == SelectArn(pages, name)
  {
    arn := "";
    var i := 0;
    while i < |pages|
      invariant 0 <= i <= |pages|
      invariant arn == SelectArn(pages[..i], name)
    {
      var page := pages[i];
      assert pages[..i + 1][..i] == pages[..i];
      assert pages[..i + 1][i] == page;
      var j := 0;
      while j < |page|
        invariant 0 <= j <= |page|
        invariant forall k :: 0 <= k < j ==> page[k].name != name
      {
        if page[j].name == name {
          arn := page[j].stateMachineArn;
          break;
        }
        j := j + 1;
      }
      i := i + 1;
    }
    assert pages[..i] == pages;
  }

  /** The execution name: the current time as `%Y%m%d%I%M%S`, on a 12-hour clock. */
  function ExecutionName(now: DateTime): (name: string)
    requires Valid(now)
    ensures |name| == 14 && AllDigits(name)
  {
    StampShape(now);
    Stamp12(now)
  }

  /** One `start_execution` call; the input is the record `json.dumps` encodes. */
  datatype StartExecution = StartExecution(stateMachineArn: string, name: string, input: Record)

  /** `start_workflow`: the execution it requests, or `None` when listing the
      state machines fails; every exception is swallowed. */
  method StartWorkflow(smName: string, listing: Paged<Machine>, now: DateTime, input: Record)
    returns (started: Option<StartExecution>)
    requires Valid(now)
    ensures started.Some? <==> !listing.fails
    ensures started.Some? ==> started.value == StartExecution(SelectArn(listing.pages, smName), Stamp12(now), input)
  {
    var execId := ExecutionName(now);
    var arn := FindStateMachine(listing.pages, smName);
    if listing.fails {
      return None;
    }
    return Some(StartExecution(arn, execId, input));
  }

  /** `lambda_handler`: an event that is not the trigger raises `TypeError`
      in `prepare_input`; otherwise the workflow is started with the seed. */
  method LauncherHandler(cfg: Config, event: Json, listing: Paged<Machine>, now: DateTime)
    returns (r: Py<Option<StartExecution>>)
    requires Valid(now)
    ensures r.Ok? <==> IsTriggerEvent(event)
    ensures ExtractTrigger(event) == Ok(None) ==> r == Err(TypeError)
    ensures r.Ok? ==> (r.value.Some? <==> !listing.fails)
    ensures r.Ok? && r.value.Some? ==>
              && r.value.value.stateMachineArn == SelectArn(listing.pages, cfg.smName)
              && r.value.value.name == Stamp12(now)
              && r.value.value.input == PrepareInput(cfg, ExtractTrigger(event).value).value
  {
    var member := ExtractTrigger(event);
    if member.Err? {
      return Err(member.error);
    }
    var input := PrepareInput(cfg, member.value);
    if input.Err? {
      return Err(input.error);
    }
    var started := StartWorkflow(cfg.smName, listing, now, input.value);
    return Ok(started);
  }
}

=== FILE: ops_bucket.dfy ===
/** The Preparer stage: provision a private bucket in the member account,
    let the master account's role write into it, copy the remediation
    template there, and hand a re-shaped state record to the next stage.
    S3 is an abstract store; which calls fail is an input. */
module OpsBucket {
  import opened Wrappers
  import opened PyValue
  import opened Identity
  import opened Timestamp

  /** The four switches of a public-access block. */
  datatype AccessBlock = AccessBlock(blockPublicAcls: bool, ignorePublicAcls: bool, blockPublicPolicy: bool, restrictPublicBuckets: bool)

  const FullBlock := AccessBlock(true, true, true, true)

  /** A bucket-policy document, as the dictionary handed to `json.dumps`. */
  datatype Condition = StringEquals(conditionKey: string, conditionValue: string)
  datatype Statement = Statement(
    sid: string,
    effect: string,
    principal: string,
    actions: seq<string>,
    resources: seq<string>,
    condition: Option<Condition>)
  datatype Policy = Policy(version: string, id: string, statements: seq<Statement>)

  datatype ObjectRef = ObjectRef(bucket: string, key: string)

  /** What the stage can observe and change in S3: the member account's
      buckets, their public-access blocks and policies, and every object. */
  datatype S3 = S3(owned: set<string>, blocks: map<string, AccessBlock>, policies: map<string, Policy>, objects: set<ObjectRef>)

  /** The S3 operations the stage issues, in the order the stage issues them. */
  datatype Op = ListBuckets | CreateBucket | PutPublicAccessBlock | PutBucketPolicy | CopyObject

  datatype Request =
    | ListBucketsRequest
    | CreateBucketRequest(bucket: string, acl: string, objectOwnership: string)
    | PutPublicAccessBlockRequest(bucket: string, block: AccessBlock)
    | PutBucketPolicyRequest(bucket: string, policy: Policy)
    | CopyObjectRequest(acl: string, bucket: string, sourceBucket: Json, key: Json)

  function OpOf(r: Request): Op {
    match r
    case ListBucketsRequest => ListBuckets
    case CreateBucketRequest(_, _, _) => CreateBucket
    case PutPublicAccessBlockRequest(_, _) => PutPublicAccessBlock
    case PutBucketPolicyRequest(_, _) => PutBucketPolicy
    case CopyObjectRequest(_, _, _, _) => CopyObject
  }

  function Rank(op: Op): nat {
    match op
    case ListBuckets => 0
    case CreateBucket => 1
    case PutPublicAccessBlock => 2
    case PutBucketPolicy => 3
    case CopyObject => 4
  }

  function OpName(op: Op): string {
    match op
    case ListBuckets => "ListBuckets"
    case CreateBucket => "CreateBucket"
    case PutPublicAccessBlock => "PutPublicAccessBlock"
    case PutBucketPolicy => "PutBucketPolicy"
    case CopyObject => "CopyObject"
  }

  /** Requests were sent in the stage's fixed order, each operation at most once. */
  predicate InOrder(sent: seq<Request>) {
    forall i, j :: 0 <= i < j < |sent| ==> Rank(OpOf(sent[i])) < Rank(OpOf(sent[j]))
  }

  /** A raise after requests were sent names the operation of the last one,
      or is the client refusing to send the copy that would have followed the
      policy: nothing is sent after a failure. */
  predicate StoppedAtFailure<T>(sent: seq<Request>, result: Py<T>) {
    result.Err? && |sent| > 0 ==>
      if result.error == ParamValidationError then OpOf(sent[|sent| - 1]) == PutBucketPolicy
      else result.error == ClientError(OpName(OpOf(sent[|sent| - 1])))
  }

  /** The store after a sequence of calls, the requests sent in order, and what the sequence returned or raised. */
  datatype Run<T> = Run(s3: S3, sent: seq<Request>, result: Py<T>)

  // ---------------------------------------------------------------------------
  // create_bucket_if_not_exists

  /** The bucket step returns normally: the listing works and the bucket is
      either present already or can be created and blocked. */
  predicate BucketReady(s3: S3, failing: set<Op>, name: string) {
    ListBuckets !in failing && (name in s3.owned || (CreateBucket !in failing && PutPublicAccessBlock !in failing))
  }

  /** `create_bucket_if_not_exists`: list the account's buckets; when the name is
      absent, create it private and then block all public access. */
  function EnsureBucket(s3: S3, failing: set<Op>, name: string): (run: Run<bool>)
    // True on every path that does not raise, whether or not the bucket existed.
    ensures run.result.Ok? <==> BucketReady(s3, failing, name)
    ensures run.result.Ok? ==> run.result.value && name in run.s3.owned
    ensures InOrder(run.sent) && StoppedAtFailure(run.sent, run.result) && |run.sent| > 0
    ensures forall i :: 0 <= i < |run.sent| ==> Rank(OpOf(run.sent[i])) < Rank(PutBucketPolicy)
    ensures ListBuckets in failing || (CreateBucket in failing && name !in s3.owned) ==> run.result.Err?
    // No other bucket, policy or object is touched.
    ensures run.s3.owned - {name} == s3.owned - {name}
    ensures run.s3.blocks - {name} == s3.blocks - {name}
    ensures run.s3.policies == s3.policies && run.s3.objects == s3.objects
  {
    if ListBuckets in failing then Run(s3, [ListBucketsRequest], Err(ClientError("ListBuckets")))
    else if name in s3.owned then Run(s3, [ListBucketsRequest], Ok(true))
    else
      var create := CreateBucketRequest(name, "private", "BucketOwnerPreferred");
      if CreateBucket in failing then Run(s3, [ListBucketsRequest, create], Err(ClientError("CreateBucket")))
      else
        var created := s3.(owned := s3.owned + {name});
        var block := PutPublicAccessBlockRequest(name, FullBlock);
        if PutPublicAccessBlock in failing then Run(created, [ListBucketsRequest, create, block], Err(ClientError("PutPublicAccessBlock")))
        else Run(created.(blocks := created.blocks[name := FullBlock]), [ListBucketsRequest, create, block], Ok(true))
  }

  /** The outcome case by case: a failed listing changes nothing; a bucket
      already present is only listed; an absent one is created private and
      then fully blocked; and since the block is a separate call, a failed
      block leaves the bucket created but unblocked. */
  lemma EnsureBucketCases(s3: S3, failing: set<Op>, name: string)
    ensures var run := EnsureBucket(s3, failing, name);
            && (ListBuckets in failing ==> run.s3 == s3 && run.sent == [ListBucketsRequest])
            && (name in s3.owned ==> run.s3 == s3 && run.sent == [ListBucketsRequest])
            && (name in s3.owned && ListBuckets !in failing ==> run.result == Ok(true))
            && (name !in s3.owned && ListBuckets !in failing && CreateBucket !in failing && PutPublicAccessBlock !in failing ==>
                  && run.result == Ok(true)
                  && run.s3.owned == s3.owned + {name}
                  && run.s3.blocks == s3.blocks[name := FullBlock]
                  && run.sent == [ListBucketsRequest, CreateBucketRequest(name, "private", "BucketOwnerPreferred"),
                                  PutPublicAccessBlockRequest(name, FullBlock)])
            && (name !in s3.owned && name !in s3.blocks && ListBuckets !in failing && CreateBucket !in failing
                && PutPublicAccessBlock in failing ==>
                  run.result.Err? && name in run.s3.owned && name !in run.s3.blocks)
  {
  }

  /** Running it a second time changes nothing the first run did not, and when
      listing and creation work the second run only lists. */
  lemma EnsureBucketIdempotent(s3: S3, failing: set<Op>, name: string)
    ensures var once := EnsureBucket(s3, failing, name);
            var twice := EnsureBucket(once.s3, failing, name);
            && twice.s3 == once.s3
            && (ListBuckets !in failing && CreateBucket !in failing ==> twice.sent == [ListBucketsRequest] && twice.result == Ok(true))
  {
  }

  // ---------------------------------------------------------------------------
  // create_cross_account_bucket_policy

  /** The master account's role, always in the `aws` partition. */
  function MasterPrincipal(masterAccount: string, roleName: string): string {
    "arn:aws:iam::" + masterAccount + ":role/" + roleName
  }

  function BucketArn(bucket: string): string {
    "arn:aws:s3:::" + bucket
  }

  function ObjectsArn(bucket: string): string {
    BucketArn(bucket) + "/*"
  }

  const OwnerFullControl := "bucket-owner-full-control"

  /** The policy document `create_cross_account_bucket_policy` attaches. */
  function BucketPolicy(memberAccount: string, masterAccount: string, roleName: string, bucket: string): (p: Policy)
    ensures p.version == "2012-10-17" && p.id == "bucket-policy-" + memberAccount
    ensures |p.statements| == 2
    ensures forall i :: 0 <= i < |p.statements| ==>
              p.statements[i].effect == "Allow" && p.statements[i].principal == MasterPrincipal(masterAccount, roleName)
  {
    var principal := MasterPrincipal(masterAccount, roleName);
    Policy("2012-10-17", "bucket-policy-" + memberAccount, [
      Statement("stmt-put-bucket-objects", "Allow", principal, ["s3:PutObject"], [ObjectsArn(bucket)],
                Some(StringEquals("s3:x-amz-acl", OwnerFullControl))),
      Statement("stmt-list-bucket", "Allow", principal, ["s3:ListBucket"], [BucketArn(bucket)], None)
    ])
  }

  /** A literal reading of one statement: it allows the request when it is an
      `Allow` naming this principal, action and resource, and its condition (if
      any) is on the request's ACL header and matches it. */
  predicate StatementPermits(st: Statement, principal: string, action: string, resource: string, acl: Option<string>) {
    && st.effect == "Allow"
    && st.principal == principal
    && action in st.actions
    && resource in st.resources
    && (st.condition.Some? ==> st.condition.value.conditionKey == "s3:x-amz-acl" && acl == Some(st.condition.value.conditionValue))
  }

  predicate Permits(p: Policy, principal: string, action: string, resource: string, acl: Option<string>) {
    exists i :: 0 <= i < |p.statements| && StatementPermits(p.statements[i], principal, action, resource, acl)
  }

  /** The policy grants the master role object writes carrying the
      owner-full-control ACL and listing of the bucket, and nothing else to anyone. */
  lemma PolicyGrantsExactly(memberAccount: string, masterAccount: string, roleName: string, bucket: string,
                            principal: string, action: string, resource: string, acl: Option<string>)
    ensures Permits(BucketPolicy(memberAccount, masterAccount, roleName, bucket), principal, action, resource, acl) <==>
            && principal == MasterPrincipal(masterAccount, roleName)
            && ((action == "s3:PutObject" && resource == ObjectsArn(bucket) && acl == Some(OwnerFullControl))
                || (action == "s3:ListBucket" && resource == BucketArn(bucket)))
  {
    var p := BucketPolicy(memberAccount, masterAccount, roleName, bucket);
    assert ObjectsArn(bucket) != BucketArn(bucket) by {
      assert |ObjectsArn(bucket)| == |BucketArn(bucket)| + 2;
    }
    if Permits(p, principal, action, resource, acl) {
      var i :| 0 <= i < |p.statements| && StatementPermits(p.statements[i], principal, action, resource, acl);
      assert i == 0 || i == 1;
    } else {
      assert !StatementPermits(p.statements[0], principal, action, resource, acl);
      assert !StatementPermits(p.statements[1], principal, action, resource, acl);
    }
  }

  /** `put_bucket_policy`: replaces whatever policy the bucket had. */
  function AttachPolicy(s3: S3, failing: set<Op>, bucket: string, policy: Policy): (run: Run<()>)
    ensures run.sent == [PutBucketPolicyRequest(bucket, policy)]
    ensures run.result.Ok? <==> PutBucketPolicy !in failing
    ensures run.result.Ok? ==> run.s3.policies == s3.policies[bucket := policy]
    ensures run.result.Err? ==> run.s3 == s3 && run.result.error == ClientError("PutBucketPolicy")
    ensures run.s3.owned == s3.owned && run.s3.blocks == s3.blocks && run.s3.objects == s3.objects
  {
    if PutBucketPolicy in failing then Run(s3, [PutBucketPolicyRequest(bucket, policy)], Err(ClientError("PutBucketPolicy")))
    else Run(s3.(policies := s3.policies[bucket := policy]), [PutBucketPolicyRequest(bucket, policy)], Ok(()))
  }

  // ---------------------------------------------------------------------------
  // copy_template

  /** `copy_object` of the same key from the source bucket into the target
      bucket with the owner-full-control ACL. The client refuses a source
      bucket or key that is not a string before sending anything; once sent,
      the call fails when the service fails it or when the source object or
      the target bucket does not exist. */
  function CopyTemplate(s3: S3, failing: set<Op>, source: Json, target: string, key: Json): (run: Run<()>)
    // The request goes out exactly when both names are strings.
    ensures run.sent == [] <==> !(source.Str? && key.Str?)
    ensures run.sent != [] ==> run.sent == [CopyObjectRequest(OwnerFullControl, target, source, key)]
    ensures run.result.Ok? <==> (&& CopyObject !in failing && source.Str? && key.Str?
                                && ObjectRef(source.s, key.s) in s3.objects && target in s3.owned)
    ensures run.result.Ok? ==> run.s3 == s3.(objects := s3.objects + {ObjectRef(target, key.s)})
    ensures run.result.Err? ==> run.s3 == s3
    ensures run.result.Err? ==> run.result.error == if run.sent == [] then ParamValidationError else ClientError("CopyObject")
  {
    var request := CopyObjectRequest(OwnerFullControl, target, source, key);
    if !source.Str? || !key.Str? then Run(s3, [], Err(ParamValidationError))
    else if CopyObject in failing || ObjectRef(source.s, key.s) !in s3.objects || target !in s3.owned
    then Run(s3, [request], Err(ClientError("CopyObject")))
    else Run(s3.(objects := s3.objects + {ObjectRef(target, key.s)}), [request], Ok(()))
  }

  /** The template can be copied out of the source bucket: both names are strings and the object exists. */
  predicate TemplateAvailable(s3: S3, source: Json, key: Json) {
    source.Str? && key.Str? && ObjectRef(source.s, key.s) in s3.objects
  }

  // ---------------------------------------------------------------------------
  // lambda_handler

  /** `<base>-<YYYYMMDDHHMMSS>`, the per-run member bucket. */
  function MemberBucketName(base: Json, now: DateTime): string
    requires Valid(now)
  {
    Show(base) + "-" + Stamp24(now)
  }

  /** The name carries the base and, after a dash, the fourteen-digit clock
      reading; two different seconds give two different names. */
  lemma MemberBucketNameUnique(base: Json, t: DateTime, u: DateTime)
    requires Valid(t) && Valid(u)
    ensures (StampShape(t);
             var name := MemberBucketName(base, t);
             |name| == |Show(base)| + 15 && name[..|Show(base)|] == Show(base) && name[|Show(base)|] == '-'
             && ParseStamp(name[|Show(base)| + 1..]) == t)
    ensures MemberBucketName(base, t) == MemberBucketName(base, u) ==> t == u
  {
    var b := Show(base);
    StampShape(t);
    assert MemberBucketName(base, t)[|b| + 1..] == Stamp24(t);
    assert MemberBucketName(base, u)[|b| + 1..] == Stamp24(u);
    Stamp24RoundTrip(t);
    Stamp24RoundTrip(u);
  }

  /** The keys the handler reads. */
  const PreparerReads: set<string> := {
    "org_id", "assume_role", "master_account", "home_region", "master_bucket",
    "member_account", "member_email", "sh_admin_account", "member_bucket", "cfn_template_name"}

  /** The keys of the record the handler returns. */
  const PreparerKeys: set<string> := {
    "org_id", "assume_role", "member_account", "master_bucket",
    "member_email", "member_region", "member_bucket", "cfn_template_name"}

  /** Keys that pass from input to output unchanged. */
  const PreparerPassThrough: set<string> := {
    "org_id", "assume_role", "member_account", "master_bucket", "member_email", "cfn_template_name"}

  /** The ten values the handler reads, by name. */
  datatype PreparerInput = PreparerInput(
    orgId: Json, role: Json, masterAccount: Json, homeRegion: Json, masterBucket: Json,
    memberAccount: Json, memberEmail: Json, shAdminAccount: Json, memberBucketBase: Json, templateName: Json)

  /** The handler's reads: `event[k]` for each key in turn; the first missing one raises. */
  function ReadPreparerInput(event: Record): (r: Py<PreparerInput>)
    ensures r.Ok? <==> PreparerReads <= event.Keys
    ensures r.Err? ==> r.error.KeyError? && r.error.key in PreparerReads && r.error.key !in event
    ensures r.Ok? ==> r.value == PreparerInput(
              event["org_id"], event["assume_role"], event["master_account"], event["home_region"], event["master_bucket"],
              event["member_account"], event["member_email"], event["sh_admin_account"], event["member_bucket"], event["cfn_template_name"])
  {
    var orgId :- Get(event, "org_id");
    var role :- Get(event, "assume_role");
    var masterAccount :- Get(event, "master_account");
    var homeRegion :- Get(event, "home_region");
    var masterBucket :- Get(event, "master_bucket");
    var memberAccount :- Get(event, "member_account");
    var memberEmail :- Get(event, "member_email");
    var shAdminAccount :- Get(event, "sh_admin_account");
    var memberBucketBase :- Get(event, "member_bucket");
    var templateName :- Get(event, "cfn_template_name");
    Ok(PreparerInput(orgId, role, masterAccount, homeRegion, masterBucket,
                     memberAccount, memberEmail, shAdminAccount, memberBucketBase, templateName))
  }

  /** The record handed on. */
  function PreparerOutput(input: PreparerInput, bucket: string): Record {
    map[
      "org_id" := input.orgId,
      "assume_role" := input.role,
      "member_account" := input.memberAccount,
      "master_bucket" := input.masterBucket,
      "member_email" := input.memberEmail,
      "member_region" := input.homeRegion,
      "member_bucket" := Str(bucket),
      "cfn_template_name" := input.templateName]
  }

  lemma PreparerOutputFields(input: PreparerInput, bucket: string)
    ensures var out := PreparerOutput(input, bucket);
            && out.Keys == PreparerKeys
            && out["org_id"] == input.orgId && out["assume_role"] == input.role
            && out["member_account"] == input.memberAccount && out["master_bucket"] == input.masterBucket
            && out["member_email"] == input.memberEmail && out["member_region"] == input.homeRegion
            && out["member_bucket"] == Str(bucket) && out["cfn_template_name"] == input.templateName
  {
  }

  /** The stage's collaborators: identity service, S3, which S3 calls fail, and the clock. */
  datatype PreparerEnv = PreparerEnv(sts: Sts, s3: S3, failing: set<Op>, now: DateTime)

  /** The handler's two sessions: the master account's, then the member account's. */
  function AssumeStageRoles(sts: Sts, input: PreparerInput): (r: Py<()>)
    ensures r.Ok? <==> AssumeRole(sts, input.orgId, input.masterAccount, input.role).Ok?
                       && AssumeRole(sts, input.orgId, input.memberAccount, input.role).Ok?
    ensures r.Ok? ==> input.masterAccount.Str? && input.memberAccount.Str? && input.role.Str?
  {
    var _ :- AssumeRole(sts, input.orgId, input.masterAccount, input.role);
    var _ :- AssumeRole(sts, input.orgId, input.memberAccount, input.role);
    Ok(())
  }

  /** Requests of one step all come before those of the next. */
  lemma InOrderAppend(a: seq<Request>, b: seq<Request>)
    requires InOrder(a) && InOrder(b)
    requires forall i, j :: 0 <= i < |a| && 0 <= j < |b| ==> Rank(OpOf(a[i])) < Rank(OpOf(b[j]))
    ensures InOrder(a + b)
  {
  }

  /** The handler's last two steps: attach the policy, then copy the
      template, the copy only if the policy did not raise. */
  function Publish(s3: S3, failing: set<Op>, memberAccount: string, masterAccount: string, role: string,
                   masterBucket: Json, bucket: string, template: Json): (run: Run<()>)
    ensures InOrder(run.sent) && StoppedAtFailure(run.sent, run.result) && |run.sent| > 0
    ensures forall i :: 0 <= i < |run.sent| ==> Rank(PutBucketPolicy) <= Rank(OpOf(run.sent[i]))
    ensures run.result.Ok? <==> && PutBucketPolicy !in failing && CopyObject !in failing
                                && TemplateAvailable(s3, masterBucket, template) && bucket in s3.owned
    // The copy goes out exactly when the policy call returned and the client
    // accepts both names; otherwise the client raises after the policy.
    ensures PutBucketPolicy !in failing && masterBucket.Str? && template.Str? ==>
              run.sent == [PutBucketPolicyRequest(bucket, BucketPolicy(memberAccount, masterAccount, role, bucket)),
                           CopyObjectRequest(OwnerFullControl, bucket, masterBucket, template)]
    ensures PutBucketPolicy !in failing && !(masterBucket.Str? && template.Str?) ==>
              && run.sent == [PutBucketPolicyRequest(bucket, BucketPolicy(memberAccount, masterAccount, role, bucket))]
              && run.result == Err(ParamValidationError)
    ensures PutBucketPolicy in failing ==> run.result.Err? && run.sent == [PutBucketPolicyRequest(bucket, BucketPolicy(memberAccount, masterAccount, role, bucket))]
    ensures CopyObject in failing ==> run.result.Err?
    ensures run.s3.owned == s3.owned
    ensures run.result.Ok? ==>
              && template.Str?
              && bucket in run.s3.policies
              && run.s3.policies[bucket] == BucketPolicy(memberAccount, masterAccount, role, bucket)
              && ObjectRef(bucket, template.s) in run.s3.objects
              && run.sent == [PutBucketPolicyRequest(bucket, run.s3.policies[bucket]),
                              CopyObjectRequest(OwnerFullControl, bucket, masterBucket, template)]
  {
    var policy := BucketPolicy(memberAccount, masterAccount, role, bucket);
    var attached := AttachPolicy(s3, failing, bucket, policy);
    if attached.result.Err? then attached
    else
      var copied := CopyTemplate(attached.s3, failing, masterBucket, bucket, template);
      Run(copied.s3, attached.sent + copied.sent, copied.result)
  }

  /** The handler's three S3 steps: ensure the bucket, attach the policy, copy
      the template, each only if the previous one did not raise. */
  function Provision(s3: S3, failing: set<Op>, memberAccount: string, masterAccount: string, role: string,
                     masterBucket: Json, bucket: string, template: Json): (run: Run<()>)
    ensures InOrder(run.sent) && StoppedAtFailure(run.sent, run.result)
    ensures run.result.Ok? <==> && BucketReady(s3, failing, bucket) && PutBucketPolicy !in failing && CopyObject !in failing
                                && TemplateAvailable(s3, masterBucket, template)
    ensures run.result.Ok? ==>
              && template.Str?
              && bucket in run.s3.owned
              && bucket in run.s3.policies
              && run.s3.policies[bucket] == BucketPolicy(memberAccount, masterAccount, role, bucket)
              && ObjectRef(bucket, template.s) in run.s3.objects
              && |run.sent| >= 3
              && run.sent[|run.sent| - 2] == PutBucketPolicyRequest(bucket, run.s3.policies[bucket])
              && run.sent[|run.sent| - 1] == CopyObjectRequest(OwnerFullControl, bucket, masterBucket, template)
  {
    var ensured := EnsureBucket(s3, failing, bucket);
    if ensured.result.Err? then Run(ensured.s3, ensured.sent, Err(ensured.result.error))
    else
      var published := Publish(ensured.s3, failing, memberAccount, masterAccount, role, masterBucket, bucket, template);
      InOrderAppend(ensured.sent, published.sent);
      Run(published.s3, ensured.sent + published.sent, published.result)
  }

  /** Each step goes out exactly when the one before it returned: the policy
      exactly when the bucket step returned, and the copy exactly when the
      policy call returned as well and the client accepts both of its names. */
  lemma ProvisionSendsInTurn(s3: S3, failing: set<Op>, memberAccount: string, masterAccount: string, role: string,
                             masterBucket: Json, bucket: string, template: Json)
    ensures var run := Provision(s3, failing, memberAccount, masterAccount, role, masterBucket, bucket, template);
            && (PutBucketPolicyRequest(bucket, BucketPolicy(memberAccount, masterAccount, role, bucket)) in run.sent <==>
                  BucketReady(s3, failing, bucket))
            && (CopyObjectRequest(OwnerFullControl, bucket, masterBucket, template) in run.sent <==>
                  BucketReady(s3, failing, bucket) && PutBucketPolicy !in failing && masterBucket.Str? && template.Str?)
  {
    var policy := PutBucketPolicyRequest(bucket, BucketPolicy(memberAccount, masterAccount, role, bucket));
    var copy := CopyObjectRequest(OwnerFullControl, bucket, masterBucket, template);
    var ensured := EnsureBucket(s3, failing, bucket);
    assert policy !in ensured.sent && copy !in ensured.sent by {
      forall i | 0 <= i < |ensured.sent|
        ensures ensured.sent[i] != policy && ensured.sent[i] != copy
      {
        assert Rank(OpOf(ensured.sent[i])) < Rank(PutBucketPolicy);
      }
    }
    if ensured.result.Ok? {
      var published := Publish(ensured.s3, failing, memberAccount, masterAccount, role, masterBucket, bucket, template);
      var sent := ensured.sent + published.sent;
      assert Provision(s3, failing, memberAccount, masterAccount, role, masterBucket, bucket, template).sent == sent;
      if PutBucketPolicy in failing || !(masterBucket.Str? && template.Str?) {
        assert published.sent == [policy];
      } else {
        assert published.sent == [policy, copy];
      }
      assert policy in sent by { assert sent[|ensured.sent|] == policy; }
    }
  }

  /** A failing step stops provisioning: a failed listing or creation sends no
      policy and no copy, a failed policy sends no copy, and each raises. */
  lemma ProvisionStopsAtFailure(s3: S3, failing: set<Op>, memberAccount: string, masterAccount: string, role: string,
                                masterBucket: Json, bucket: string, template: Json)
    ensures var run := Provision(s3, failing, memberAccount, masterAccount, role, masterBucket, bucket, template);
            && (ListBuckets in failing || (CreateBucket in failing && bucket !in s3.owned) ==>
                  run.result.Err? && forall i :: 0 <= i < |run.sent| ==> Rank(OpOf(run.sent[i])) < Rank(PutBucketPolicy))
            && (PutBucketPolicy in failing ==>
                  run.result.Err? && forall i :: 0 <= i < |run.sent| ==> OpOf(run.sent[i]) != CopyObject)
            && (CopyObject in failing ==> run.result.Err?)
  {
    var ensured := EnsureBucket(s3, failing, bucket);
    if ensured.result.Ok? {
      var published := Publish(ensured.s3, failing, memberAccount, masterAccount, role, masterBucket, bucket, template);
      var sent := ensured.sent + published.sent;
      if PutBucketPolicy in failing {
        forall i | 0 <= i < |sent|
          ensures OpOf(sent[i]) != CopyObject
        {
          if i >= |ensured.sent| {
            assert sent[i] == published.sent[i - |ensured.sent|];
          } else {
            assert sent[i] == ensured.sent[i];
          }
        }
      }
    }
  }

  /** `lambda_handler`: read the record, name the bucket, assume the master and
      member roles, then provision, stopping at the first raise. */
  function Preparer(env: PreparerEnv, event: Record): (run: Run<Record>)
    requires Valid(env.now)
    // Nothing is sent before every key has been read.
    ensures !(PreparerReads <= event.Keys) ==> run.s3 == env.s3 && run.sent == [] && run.result.Err? && run.result.error.KeyError?
    ensures run.result.Ok? ==> PreparerReads <= event.Keys && AssumeStageRoles(env.sts, ReadPreparerInput(event).value).Ok?
  {
    match ReadPreparerInput(event)
    case Err(e) => Run(env.s3, [], Err(e))
    case Ok(input) =>
      match AssumeStageRoles(env.sts, input)
      case Err(e) => Run(env.s3, [], Err(e))
      case Ok(_) =>
        var bucket := MemberBucketName(input.memberBucketBase, env.now);
        var provisioned := Provision(env.s3, env.failing, input.memberAccount.s, input.masterAccount.s, input.role.s,
                                     input.masterBucket, bucket, input.templateName);
        if provisioned.result.Err? then Run(provisioned.s3, provisioned.sent, Err(provisioned.result.error))
        else Run(provisioned.s3, provisioned.sent, Ok(PreparerOutput(input, bucket)))
  }

  /** The handler returns its record exactly when every key is there, both
      roles can be assumed, and the bucket, policy and copy steps all return. */
  lemma PreparerReturnsExactly(env: PreparerEnv, event: Record)
    requires Valid(env.now)
    ensures Preparer(env, event).result.Ok? <==>
              && PreparerReads <= event.Keys
              && AssumeStageRoles(env.sts, ReadPreparerInput(event).value).Ok?
              && BucketReady(env.s3, env.failing, MemberBucketName(event["member_bucket"], env.now))
              && PutBucketPolicy !in env.failing && CopyObject !in env.failing
              && TemplateAvailable(env.s3, event["master_bucket"], event["cfn_template_name"])
  {
  }

  /** Requests go out in the stage's fixed order, and a raise after a request
      names the operation of the last request sent. */
  lemma PreparerInOrder(env: PreparerEnv, event: Record)
    requires Valid(env.now)
    ensures var run := Preparer(env, event);
            InOrder(run.sent) && StoppedAtFailure(run.sent, run.result)
  {
    var run := Preparer(env, event);
    match ReadPreparerInput(event)
    case Err(_) =>
      assert run.sent == [];
    case Ok(input) =>
      if AssumeStageRoles(env.sts, input).Err? {
        assert run.sent == [];
      } else {
        var bucket := MemberBucketName(input.memberBucketBase, env.now);
        var provisioned := Provision(env.s3, env.failing, input.memberAccount.s, input.masterAccount.s, input.role.s,
                                     input.masterBucket, bucket, input.templateName);
        assert run.sent == provisioned.sent;
        assert run.result.Err? <==> provisioned.result.Err?;
        assert run.result.Err? ==> run.result.error == provisioned.result.error;
      }
  }

  /** A successful run is the provisioning of the timestamped bucket, and
      returns the re-shaped record. */
  lemma PreparerSucceeds(env: PreparerEnv, event: Record)
    requires Valid(env.now)
    ensures Preparer(env, event).result.Ok? ==>
              var run := Preparer(env, event);
              var input := ReadPreparerInput(event).value;
              var bucket := MemberBucketName(input.memberBucketBase, env.now);
              && run.result.value == PreparerOutput(input, bucket)
              && Provision(env.s3, env.failing, input.memberAccount.s, input.masterAccount.s, input.role.s,
                           input.masterBucket, bucket, input.templateName) == Run(run.s3, run.sent, Ok(()))
  {
    if Preparer(env, event).result.Ok? {
      var input := ReadPreparerInput(event).value;
      assert AssumeStageRoles(env.sts, input).Ok?;
      var bucket := MemberBucketName(input.memberBucketBase, env.now);
      var provisioned := Provision(env.s3, env.failing, input.memberAccount.s, input.masterAccount.s, input.role.s,
                                   input.masterBucket, bucket, input.templateName);
      assert provisioned.result.Ok?;
      assert Preparer(env, event) == Run(provisioned.s3, provisioned.sent, Ok(PreparerOutput(input, bucket)));
    }
  }

  /** The record handed on: exactly eight keys, `member_region` set from
      `home_region`, the bucket name timestamped, the master and admin accounts
      and `home_region` dropped. */
  lemma PreparerOutputShape(env: PreparerEnv, event: Record)
    requires Valid(env.now)
    ensures Preparer(env, event).result.Ok? ==>
              var out := Preparer(env, event).result.value;
              && out.Keys == PreparerKeys
              && "home_region" in event && out["member_region"] == event["home_region"]
              && "member_bucket" in event && out["member_bucket"] == Str(MemberBucketName(event["member_bucket"], env.now))
              && "master_account" !in out && "sh_admin_account" !in out && "home_region" !in out
  {
    if Preparer(env, event).result.Ok? {
      var input := ReadPreparerInput(event).value;
      var bucket := MemberBucketName(input.memberBucketBase, env.now);
      PreparerSucceeds(env, event);
      PreparerOutputFields(input, bucket);
      DroppedKeysAbsent();
    }
  }

  lemma DroppedKeysAbsent()
    ensures "master_account" !in PreparerKeys && "sh_admin_account" !in PreparerKeys && "home_region" !in PreparerKeys
  {
    assert "master_account"[1] != "member_account"[1];
    assert "home_region"[0] != "assume_role"[0];
  }

  lemma OutputPassesThrough(event: Record, input: PreparerInput, bucket: string)
    requires ReadPreparerInput(event) == Ok(input)
    ensures var out := PreparerOutput(input, bucket);
            forall k :: k in PreparerPassThrough ==> k in event && k in out && out[k] == event[k]
  {
    PreparerOutputFields(input, bucket);
  }

  /** The other six fields pass through unchanged. */
  lemma PreparerPassesThrough(env: PreparerEnv, event: Record)
    requires Valid(env.now)
    ensures Preparer(env, event).result.Ok? ==>
              var out := Preparer(env, event).result.value;
              forall k :: k in PreparerPassThrough ==> k in event && k in out && out[k] == event[k]
  {
    if Preparer(env, event).result.Ok? {
      var input := ReadPreparerInput(event).value;
      var bucket := MemberBucketName(input.memberBucketBase, env.now);
      PreparerSucceeds(env, event);
      OutputPassesThrough(event, input, bucket);
    }
  }

  /** A successful run leaves the bucket owned by the member account, carrying
      the cross-account policy, and holding the template; the last two requests
      were the policy and the copy. */
  lemma PreparerEffects(env: PreparerEnv, event: Record)
    requires Valid(env.now)
    ensures Preparer(env, event).result.Ok? ==>
            var run := Preparer(env, event);
              && PreparerReads <= event.Keys
              && var bucket := MemberBucketName(event["member_bucket"], env.now);
              && event["member_account"].Str? && event["master_account"].Str? && event["assume_role"].Str?
              && event["cfn_template_name"].Str?
              && bucket in run.s3.owned
              && bucket in run.s3.policies
              && run.s3.policies[bucket] == BucketPolicy(event["member_account"].s, event["master_account"].s, event["assume_role"].s, bucket)
              && ObjectRef(bucket, event["cfn_template_name"].s) in run.s3.objects
              && |run.sent| >= 3
              && run.sent[|run.sent| - 2] == PutBucketPolicyRequest(bucket, run.s3.policies[bucket])
              && run.sent[|run.sent| - 1] == CopyObjectRequest(OwnerFullControl, bucket, event["master_bucket"], event["cfn_template_name"])
  {
    if Preparer(env, event).result.Ok? {
      PreparerSucceeds(env, event);
    }
  }

  /** A failing step stops the stage: a failed listing sends no policy and no
      copy, a failed policy sends no copy, and each raises. */
  lemma PreparerStopsAtFailure(env: PreparerEnv, event: Record)
    requires Valid(env.now)
    ensures var run := Preparer(env, event);
            && (ListBuckets in env.failing ==>
                  run.result.Err? && forall i :: 0 <= i < |run.sent| ==> Rank(OpOf(run.sent[i])) < Rank(PutBucketPolicy))
            && (PutBucketPolicy in env.failing ==>
                  run.result.Err? && forall i :: 0 <= i < |run.sent| ==> OpOf(run.sent[i]) != CopyObject)
            && (CopyObject in env.failing ==> run.result.Err?)
  {
    match ReadPreparerInput(event)
    case Err(_) =>
    case Ok(input) =>
      var bucket := MemberBucketName(input.memberBucketBase, env.now);
      if AssumeStageRoles(env.sts, input).Ok? {
        ProvisionStopsAtFailure(env.s3, env.failing, input.memberAccount.s, input.masterAccount.s, input.role.s,
                                input.masterBucket, bucket, input.templateName);
      }
  }
}

=== FILE: paging.dfy ===
/** A paginated listing as a boto3 paginator yields it: the pages served in
    order, and whether fetching the page after them fails. */
module Paging {
  datatype Paged<T> = Paged(pages: seq<seq<T>>, fails: bool)
}

=== FILE: pyvalue.dfy ===
/** Python values as they arrive in Lambda events and state records, the
    exceptions the handlers can raise, and the three dictionary operations the
    handlers use: `key in v`, `v[key]` and `str(v)`. */
module PyValue {
  import opened Wrappers
  import opened Text

  /** A decoded JSON value. Objects are Python dicts; numbers are integers. */
  datatype Json =
    | Null
    | Bool(b: bool)
    | Num(n: int)
    | Str(s: string)
    | Arr(items: seq<Json>)
    | Obj(fields: map<string, Json>)

  /** What a handler can raise. `ClientError` is any failure reported by an
      AWS call, including the client library's own parameter validation. */
  datatype Fault =
    | KeyError(key: string)
    | TypeError
    | IndexError
    | ClientError(operation: string)
    | ParamValidationError

  type Py<T> = Result<T, Fault>

  /** A state record passed between stages: a dict with string keys. */
  type Record = map<string, Json>

  predicate IsSubstring(needle: string, hay: string) {
    exists i :: 0 <= i <= |hay| && needle <= hay[i..]
  }

  /** Python's `key in v`: key lookup on a dict, substring test on a str,
      element test on a list; any other value raises. */
  function Contains(v: Json, key: string): (r: Py<bool>)
    ensures r.Err? <==> (v.Null? || v.Bool? || v.Num?)
    ensures r.Err? ==> r.error == TypeError
    ensures v.Obj? ==> r == Ok(key in v.fields)
  {
    match v
    case Obj(fields) => Ok(key in fields)
    case Str(s) => Ok(IsSubstring(key, s))
    case Arr(items) => Ok(Str(key) in items)
    case _ => Err(TypeError)
  }

  /** Python's `v[key]` with a string key: only a dict holding the key answers. */
  function Index(v: Json, key: string): (r: Py<Json>)
    ensures r.Ok? <==> (v.Obj? && key in v.fields)
    ensures r.Ok? ==> r.value == v.fields[key]
    ensures r.Err? ==> r.error == (if v.Obj? then KeyError(key) else TypeError)
  {
    match v
    case Obj(fields) => if key in fields then Ok(fields[key]) else Err(KeyError(key))
    case _ => Err(TypeError)
  }

  /** `record[key]`. */
  function Get(rec: Record, key: string): (r: Py<Json>)
    ensures r.Ok? <==> key in rec
    ensures r.Ok? ==> r.value == rec[key]
    ensures r.Err? ==> r.error == KeyError(key)
  {
    if key in rec then Ok(rec[key]) else Err(KeyError(key))
  }

  /** Python's `str(v)` as `format` and `%s` use it. Scalars are rendered as
      Python renders them; lists and dicts as a fixed marker. */
  function Show(v: Json): string {
    match v
    case Str(s) => s
    case Num(n) => if n < 0 then "-" + Decimal(-n) else Decimal(n)
    case Bool(b) => if b then "True" else "False"
    case Null => "None"
    case Arr(_) => "[...]"
    case Obj(_) => "{...}"
  }

  /** Different integers print differently: the digits parse back to the
      magnitude, and only negative numbers print a leading `-`. */
  lemma ShowNumInjective(a: int, b: int)
    ensures Show(Num(a)) == Show(Num(b)) ==> a == b
  {
    if Show(Num(a)) == Show(Num(b)) {
      var ma := if a < 0 then -a else a;
      var mb := if b < 0 then -b else b;
      assert IsDigit(Decimal(ma)[0]) && IsDigit(Decimal(mb)[0]);
      assert Show(Num(a))[0] == (if a < 0 then '-' else Decimal(ma)[0]);
      assert Show(Num(b))[0] == (if b < 0 then '-' else Decimal(mb)[0]);
      if a < 0 {
        assert Decimal(ma) == Show(Num(a))[1..];
        assert Decimal(mb) == Show(Num(b))[1..];
      }
      DecimalRoundTrip(ma);
      DecimalRoundTrip(mb);
    }
  }

}

=== FILE: remediator.dfy ===
/** The Remediator stage: assume the member account's role and launch the
    remediation template as a CloudFormation stack there, passing the assumed
    role's ARN and the member's notification address. A failed launch is
    swallowed and reported as a null `stack_id`. */
module Remediator {
  import opened Wrappers
  import opened PyValue
  import opened Identity

  datatype Parameter = Parameter(parameterKey: string, parameterValue: Json)

  /** One `create_stack` call, with the client's endpoint and region. */
  datatype StackRequest = StackRequest(
    endpoint: string,
    region: Json,
    stackName: string,
    templateUrl: string,
    parameters: seq<Parameter>,
    capabilities: seq<string>,
    onFailure: string)

  /** CloudFormation in the member account: the stacks by name, whether the
      service rejects the next create, and the id it would assign. */
  datatype CloudFormation = CloudFormation(stacks: map<string, StackRequest>, rejects: bool, nextStackId: string)

  /** The keys the handler reads. */
  const RemediatorReads: set<string> := {
    "org_id", "assume_role", "member_account", "member_email", "member_region", "member_bucket", "cfn_template_name"}

  /** The keys of the record the handler returns. */
  const RemediatorKeys: set<string> := RemediatorReads + {"stack_id"}

  datatype RemediatorInput = RemediatorInput(
    orgId: Json, role: Json, memberAccount: Json, memberEmail: Json, memberRegion: Json, memberBucket: Json, templateName: Json)

  /** The handler's reads: `event[k]` for each key in turn; the first missing one raises. */
  function ReadRemediatorInput(event: Record): (r: Py<RemediatorInput>)
    ensures r.Ok? <==> RemediatorReads <= event.Keys
    ensures r.Err? ==> r.error.KeyError? && r.error.key in RemediatorReads && r.error.key !in event
    ensures r.Ok? ==> r.value == RemediatorInput(
              event["org_id"], event["assume_role"], event["member_account"], event["member_email"],
              event["member_region"], event["member_bucket"], event["cfn_template_name"])
  {
    var orgId :- Get(event, "org_id");
    var role :- Get(event, "assume_role");
    var memberAccount :- Get(event, "member_account");
    var memberEmail :- Get(event, "member_email");
    var memberRegion :- Get(event, "member_region");
    var memberBucket :- Get(event, "member_bucket");
    var templateName :- Get(event, "cfn_template_name");
    Ok(RemediatorInput(orgId, role, memberAccount, memberEmail, memberRegion, memberBucket, templateName))
  }

  const StackPrefix := "SHRemediator-"

  function StackName(memberAccount: Json): string {
    StackPrefix + Show(memberAccount)
  }

  /** One stack name per member account: the name gives the account back. */
  lemma StackNamePerAccount(a: Json, b: Json)
    ensures StackName(a)[..|StackPrefix|] == StackPrefix && StackName(a)[|StackPrefix|..] == Show(a)
    ensures StackName(a) == StackName(b) <==> Show(a) == Show(b)
  {
    assert StackName(a)[|StackPrefix|..] == Show(a);
    assert StackName(b)[|StackPrefix|..] == Show(b);
  }

  /** Accounts given as integers get one stack name each. */
  lemma StackNameNumericAccounts(a: int, b: int)
    ensures StackName(Num(a)) == StackName(Num(b)) ==> a == b
  {
    StackNamePerAccount(Num(a), Num(b));
    ShowNumInjective(a, b);
  }

  const S3Host := ".s3.amazonaws.com/"

  /** The virtual-hosted URL of the template object in the member bucket. */
  function TemplateUrl(bucket: Json, template: Json): string {
    "https://" + Show(bucket) + S3Host + Show(template)
  }

  /** The regional CloudFormation endpoint. */
  function Endpoint(region: Json): string {
    "https://cloudformation." + Show(region) + ".amazonaws.com"
  }

  const AdministratorArnKey := "AdministratorARN"
  const NotificationEmailKey := "AdminSNSNotificationEmailAddress"

  function LaunchRequest(input: RemediatorInput, roleArn: string): StackRequest {
    StackRequest(
      Endpoint(input.memberRegion),
      input.memberRegion,
      StackName(input.memberAccount),
      TemplateUrl(input.memberBucket, input.templateName),
      [Parameter(AdministratorArnKey, Str(roleArn)), Parameter(NotificationEmailKey, input.memberEmail)],
      ["CAPABILITY_NAMED_IAM"],
      "DO_NOTHING")
  }

  /** What `launch_stack` did: the service afterwards, the request sent (none
      when the client rejected its own arguments), and the stack id or None. */
  datatype Launch = Launch(cfn: CloudFormation, sent: Option<StackRequest>, stackId: Option<string>)

  /** `launch_stack`: never raises. The client refuses a non-string region or
      email before sending; the service refuses a taken stack name, and any
      create when it is rejecting. */
  function LaunchStack(cfn: CloudFormation, input: RemediatorInput, roleArn: string): (l: Launch)
    // A stack id comes back exactly when the create call raised nothing.
    ensures l.stackId.Some? <==>
              && input.memberRegion.Str? && input.memberEmail.Str?
              && !cfn.rejects && StackName(input.memberAccount) !in cfn.stacks
    ensures l.stackId.Some? <==> l.cfn != cfn
    ensures l.stackId.Some? ==>
              && l.sent.Some? && l.stackId.value == cfn.nextStackId
              && l.cfn.stacks == cfn.stacks[l.sent.value.stackName := l.sent.value]
    ensures l.stackId.None? ==> l.cfn == cfn
    // Relaunching for the same account fails rather than replacing the stack.
    ensures StackName(input.memberAccount) in cfn.stacks ==> l.stackId.None?
    ensures l.sent.Some? ==> l.sent.value == LaunchRequest(input, roleArn)
    ensures l.sent.None? <==> !(input.memberRegion.Str? && input.memberEmail.Str?)
  {
    if !(input.memberRegion.Str? && input.memberEmail.Str?) then Launch(cfn, None, None)
    else
      var request := LaunchRequest(input, roleArn);
      if cfn.rejects || request.stackName in cfn.stacks then Launch(cfn, Some(request), None)
      else Launch(cfn.(stacks := cfn.stacks[request.stackName := request]), Some(request), Some(cfn.nextStackId))
  }

  /** The request's exact content: the stack is named after the member account,
      the template comes from the member bucket, the endpoint and region are the
      member region, named-IAM capability, no rollback, and exactly two
      parameters in order: the assumed role's ARN, then the unmodified email. */
  lemma LaunchRequestContent(input: RemediatorInput, roleArn: string)
    ensures var q := LaunchRequest(input, roleArn);
            && q.stackName[..|StackPrefix|] == StackPrefix && q.stackName[|StackPrefix|..] == Show(input.memberAccount)
            && q.templateUrl == "https://" + Show(input.memberBucket) + ".s3.amazonaws.com/" + Show(input.templateName)
            && q.endpoint == "https://cloudformation." + Show(input.memberRegion) + ".amazonaws.com"
            && q.region == input.memberRegion
            && q.capabilities == ["CAPABILITY_NAMED_IAM"]
            && q.onFailure == "DO_NOTHING"
            && |q.parameters| == 2
            && q.parameters[0] == Parameter("AdministratorARN", Str(roleArn))
            && q.parameters[1] == Parameter("AdminSNSNotificationEmailAddress", input.memberEmail)
  {
    StackNamePerAccount(input.memberAccount, input.memberAccount);
  }

  datatype RemediatorEnv = RemediatorEnv(sts: Sts, cfn: CloudFormation)

  /** The service afterwards, the stack request sent if any, and the returned record or what was raised. */
  datatype RemediatorRun = RemediatorRun(cfn: CloudFormation, sent: Option<StackRequest>, result: Py<Record>)

  function RemediatorOutput(input: RemediatorInput, stackId: Option<string>): (out: Record)
    ensures out.Keys == RemediatorKeys
  {
    map[
      "org_id" := input.orgId,
      "assume_role" := input.role,
      "member_account" := input.memberAccount,
      "member_email" := input.memberEmail,
      "member_region" := input.memberRegion,
      "member_bucket" := input.memberBucket,
      "cfn_template_name" := input.templateName,
      "stack_id" := match stackId case Some(id) => Str(id) case None => Null]
  }

  /** `lambda_handler`: read the record, assume the member role (a failure
      raises), launch the stack (a failure is swallowed), return the record. */
  function Remediate(env: RemediatorEnv, event: Record): (run: RemediatorRun)
    ensures run.result.Ok? <==>
              && ReadRemediatorInput(event).Ok?
              && (var input := ReadRemediatorInput(event).value;
                  AssumeRole(env.sts, input.orgId, input.memberAccount, input.role).Ok?)
    ensures run.result.Err? ==> run.cfn == env.cfn && run.sent.None?
    ensures run.result.Ok? ==>
              var input := ReadRemediatorInput(event).value;
              var exchange := AssumeRole(env.sts, input.orgId, input.memberAccount, input.role).value;
              var launch := LaunchStack(env.cfn, input, exchange.userArn);
              run == RemediatorRun(launch.cfn, launch.sent, Ok(RemediatorOutput(input, launch.stackId)))
  {
    match ReadRemediatorInput(event)
    case Err(e) => RemediatorRun(env.cfn, None, Err(e))
    case Ok(input) =>
      match AssumeRole(env.sts, input.orgId, input.memberAccount, input.role)
      case Err(e) => RemediatorRun(env.cfn, None, Err(e))
      case Ok(exchange) =>
        var launch := LaunchStack(env.cfn, input, exchange.userArn);
        RemediatorRun(launch.cfn, launch.sent, Ok(RemediatorOutput(input, launch.stackId)))
  }

  /** The `AdministratorARN` sent is the ARN the identity service reported for
      the member role assumed with the organization id. */
  lemma AdministratorIsAssumedRole(env: RemediatorEnv, event: Record)
    requires Remediate(env, event).sent.Some?
    ensures var input := ReadRemediatorInput(event).value;
            var q := AssumeRoleRequest(env.sts, input.orgId, input.memberAccount, input.role);
            && q.Ok? && q.value.roleArn in env.sts.roles
            && Remediate(env, event).sent.value.parameters[0] == Parameter("AdministratorARN", Str(env.sts.roles[q.value.roleArn].userArn))
            && q.value.externalId == input.orgId
  {
  }

  /** The record returned: the seven fields read, unchanged, plus `stack_id`,
      which is the new stack's id or null when the launch failed. */
  lemma RemediatorOutputShape(env: RemediatorEnv, event: Record)
    requires Remediate(env, event).result.Ok?
    ensures var run := Remediate(env, event);
            var out := run.result.value;
            && out.Keys == RemediatorKeys
            && RemediatorReads <= event.Keys
            && (forall k :: k in RemediatorReads ==> out[k] == event[k])
            && (out["stack_id"] == Null <==> run.cfn == env.cfn)
            && (out["stack_id"] != Null ==> out["stack_id"] == Str(env.cfn.nextStackId))
  {
    var input := ReadRemediatorInput(event).value;
    var exchange := AssumeRole(env.sts, input.orgId, input.memberAccount, input.role).value;
    var launch := LaunchStack(env.cfn, input, exchange.userArn);
    assert Remediate(env, event) == RemediatorRun(launch.cfn, launch.sent, Ok(RemediatorOutput(input, launch.stackId)));
    RemediatorOutputFields(input, launch.stackId);
  }

  lemma RemediatorOutputFields(input: RemediatorInput, stackId: Option<string>)
    ensures var out := RemediatorOutput(input, stackId);
            && out["org_id"] == input.orgId && out["assume_role"] == input.role
            && out["member_account"] == input.memberAccount && out["member_email"] == input.memberEmail
            && out["member_region"] == input.memberRegion && out["member_bucket"] == input.memberBucket
            && out["cfn_template_name"] == input.templateName
            && (out["stack_id"] == Null <==> stackId.None?)
            && (stackId.Some? ==> out["stack_id"] == Str(stackId.value))
  {
  }

  /** Running again for a member that already has the stack reports a null
      `stack_id` and leaves the existing stack alone. */
  lemma RelaunchReportsNull(env: RemediatorEnv, event: Record)
    requires "member_account" in event && StackName(event["member_account"]) in env.cfn.stacks
    ensures var run := Remediate(env, event);
            && run.cfn == env.cfn
            && (run.result.Ok? ==> run.result.value["stack_id"] == Null)
  {
    if Remediate(env, event).result.Ok? {
      RemediatorOutputShape(env, event);
    }
  }
}

=== FILE: text.dfy ===
/** String helpers with Python's meaning: `str.split(sep)` on a single character,
    its inverse `sep.join(parts)`, and decimal digit rendering and parsing. */
module Text {

  /** Python's `s.split(sep)` for a one-character separator: never empty,
      and an empty field stands between two adjacent separators. */
  function Split(s: string, sep: char): (parts: seq<string>)
    ensures |parts| >= 1
    ensures forall i :: 0 <= i < |parts| ==> sep !in parts[i]
    decreases |s|
  {
    if |s| == 0 then [""]
    else
      var rest := Split(s[1..], sep);
      if s[0] == sep then [""] + rest
      else [[s[0]] + rest[0]] + rest[1..]
  }

  /** Python's `sep.join(parts)` for a non-empty list of parts. */
  function Join(parts: seq<string>, sep: char): string
    requires |parts| >= 1
    decreases |parts|
  {
    if |parts| == 1 then parts[0] else parts[0] + [sep] + Join(parts[1..], sep)
  }

  /** Joining the fields of a split gives back the original string. */
  lemma {:induction false} JoinSplit(s: string, sep: char)
    ensures Join(Split(s, sep), sep) == s
    decreases |s|
  {
    if |s| > 0 {
      var rest := Split(s[1..], sep);
      JoinSplit(s[1..], sep);
      if s[0] == sep {
        assert Split(s, sep) == [""] + rest;
        assert ([""] + rest)[1..] == rest;
      } else {
        var parts := [[s[0]] + rest[0]] + rest[1..];
        assert Split(s, sep) == parts;
        if |rest| == 1 {
          assert Join(parts, sep) == [s[0]] + rest[0];
        } else {
          assert parts[1..] == rest[1..];
          assert Join(rest, sep) == rest[0] + [sep] + Join(rest[1..], sep);
          assert Join(parts, sep) == [s[0]] + rest[0] + [sep] + Join(rest[1..], sep);
        }
        assert s == [s[0]] + s[1..];
      }
    }
  }

  /** A field free of the separator, then the separator: split peels it off. */
  lemma {:induction false} SplitPrefix(a: string, sep: char, b: string)
    requires sep !in a
    ensures Split(a + [sep] + b, sep) == [a] + Split(b, sep)
    decreases |a|
  {
    var s := a + [sep] + b;
    if |a| == 0 {
      assert s == [sep] + b;
      assert s[1..] == b;
    } else {
      assert s[0] == a[0];
      assert s[1..] == a[1..] + [sep] + b;
      SplitPrefix(a[1..], sep, b);
      assert [a[0]] + a[1..] == a;
    }
  }

  /** A string without the separator splits into itself alone. */
  lemma {:induction false} SplitNoSeparator(a: string, sep: char)
    requires sep !in a
    ensures Split(a, sep) == [a]
    decreases |a|
  {
    if |a| > 0 {
      SplitNoSeparator(a[1..], sep);
      assert [a[0]] + a[1..] == a;
    }
  }

  /** A split yields a single field exactly when the separator does not occur. */
  lemma SplitOneField(s: string, sep: char)
    ensures |Split(s, sep)| == 1 <==> sep !in s
  {
    if sep !in s {
      SplitNoSeparator(s, sep);
    } else if |Split(s, sep)| == 1 {
      JoinSplit(s, sep);
    }
  }

  /** Splitting a join of separator-free fields gives back the fields. */
  lemma {:induction false} SplitJoin(parts: seq<string>, sep: char)
    requires |parts| >= 1
    requires forall i :: 0 <= i < |parts| ==> sep !in parts[i]
    ensures Split(Join(parts, sep), sep) == parts
    decreases |parts|
  {
    if |parts| == 1 {
      SplitNoSeparator(parts[0], sep);
    } else {
      SplitJoin(parts[1..], sep);
      SplitPrefix(parts[0], sep, Join(parts[1..], sep));
      assert [parts[0]] + parts[1..] == parts;
    }
  }

  predicate IsDigit(c: char) {
    '0' <= c <= '9'
  }

  predicate AllDigits(s: string) {
    forall i :: 0 <= i < |s| ==> IsDigit(s[i])
  }

  function Digit(n: nat): (c: char)
    requires n < 10
    ensures IsDigit(c)
  {
    "0123456789"[n]
  }

  function DigitValue(c: char): (n: nat)
    requires IsDigit(c)
    ensures n < 10
  {
    (c as int - '0' as int) as nat
  }

  lemma DigitRoundTrip(n: nat)
    requires n < 10
    ensures DigitValue(Digit(n)) == n
  {
  }

  /** The decimal rendering of a natural number, without leading zeros. */
  function Decimal(n: nat): (s: string)
    ensures |s| >= 1 && AllDigits(s)
    decreases n
  {
    if n < 10 then [Digit(n)] else Decimal(n / 10) + [Digit(n % 10)]
  }

  /** The value of a string of decimal digits. */
  function Value(s: string): nat
    requires AllDigits(s)
    decreases |s|
  {
    if |s| == 0 then 0 else 10 * Value(s[..|s| - 1]) + DigitValue(s[|s| - 1])
  }

  /** Parsing a rendered number gives the number back. */
  lemma {:induction false} DecimalRoundTrip(n: nat)
    ensures Value(Decimal(n)) == n
    decreases n
  {
    if n >= 10 {
      DecimalRoundTrip(n / 10);
      var s := Decimal(n);
      assert s[..|s| - 1] == Decimal(n / 10);
      DigitRoundTrip(n % 10);
    } else {
      DigitRoundTrip(n);
    }
  }
}

=== FILE: timestamp.dfy ===
/** Wall-clock readings and the two `strftime` formats the workflow uses:
    `%Y%m%d%H%M%S` (24-hour, for bucket names) and `%Y%m%d%I%M%S`
    (12-hour, for execution names). The clock itself is an input. */
module Timestamp {
  import opened Text

  /** A reading of `datetime.now()`, to the second. */
  datatype DateTime = DateTime(year: nat, month: nat, day: nat, hour: nat, minute: nat, second: nat)

  /** The field ranges of a Python datetime; years are the four-digit ones. */
  predicate Valid(t: DateTime) {
    && 1000 <= t.year <= 9999
    && 1 <= t.month <= 12
    && 1 <= t.day <= 31
    && t.hour < 24
    && t.minute < 60
    && t.second < 60
  }

  /** A zero-padded two-digit field. */
  function Pad2(n: nat): (s: string)
    requires n < 100
    ensures |s| == 2 && AllDigits(s)
  {
    [Digit(n / 10), Digit(n % 10)]
  }

  /** A zero-padded four-digit field. */
  function Pad4(n: nat): (s: string)
    requires n < 10000
    ensures |s| == 4 && AllDigits(s)
  {
    [Digit(n / 10 / 10 / 10), Digit(n / 10 / 10 % 10), Digit(n / 10 % 10), Digit(n % 10)]
  }

  lemma Pad2Value(n: nat)
    requires n < 100
    ensures Value(Pad2(n)) == n
  {
    var s := Pad2(n);
    DigitRoundTrip(n / 10);
    DigitRoundTrip(n % 10);
    assert s[..1][..0] == [];
    assert Value(s[..1]) == n / 10;
  }

  lemma Pad4Value(n: nat)
    requires n < 10000
    ensures Value(Pad4(n)) == n
  {
    var s := Pad4(n);
    DigitRoundTrip(n / 10 / 10 / 10);
    DigitRoundTrip(n / 10 / 10 % 10);
    DigitRoundTrip(n / 10 % 10);
    DigitRoundTrip(n % 10);
    assert s[..1][..0] == [];
    assert s[..2][..1] == s[..1];
    assert s[..3][..2] == s[..2];
    assert s[..4] == s;
    assert Value(s[..1]) == n / 10 / 10 / 10;
    assert Value(s[..2]) == n / 10 / 10;
    assert Value(s[..3]) == n / 10;
  }

  /** The hour as `%I` prints it: 12 for midnight and noon, 1..11 otherwise. */
  function Hour12(hour: nat): (h: nat)
    requires hour < 24
    ensures 1 <= h <= 12
    ensures h % 12 == hour % 12
  {
    if hour % 12 == 0 then 12 else hour % 12
  }

  function Digits(t: DateTime, hour: nat): string
    requires Valid(t) && hour < 100
  {
    Pad4(t.year) + Pad2(t.month) + Pad2(t.day) + Pad2(hour) + Pad2(t.minute) + Pad2(t.second)
  }

  /** `strftime(t, '%Y%m%d%H%M%S')`. */
  function Stamp24(t: DateTime): string
    requires Valid(t)
  {
    Digits(t, t.hour)
  }

  /** `strftime(t, '%Y%m%d%I%M%S')`. */
  function Stamp12(t: DateTime): string
    requires Valid(t)
  {
    Digits(t, Hour12(t.hour))
  }

  /** Both formats print exactly fourteen decimal digits. */
  lemma StampShape(t: DateTime)
    requires Valid(t)
    ensures |Stamp24(t)| == 14 && AllDigits(Stamp24(t))
    ensures |Stamp12(t)| == 14 && AllDigits(Stamp12(t))
  {
  }

  /** Reads the six fields back out of a fourteen-digit stamp. */
  function ParseStamp(s: string): DateTime
    requires |s| == 14 && AllDigits(s)
  {
    DateTime(Value(s[0..4]), Value(s[4..6]), Value(s[6..8]), Value(s[8..10]), Value(s[10..12]), Value(s[12..14]))
  }

  /** The 24-hour stamp loses nothing: every field can be read back. */
  lemma Stamp24RoundTrip(t: DateTime)
    requires Valid(t)
    ensures (StampShape(t); ParseStamp(Stamp24(t)) == t)
  {
    StampShape(t);
    var s := Stamp24(t);
    assert s[0..4] == Pad4(t.year);
    assert s[4..6] == Pad2(t.month);
    assert s[6..8] == Pad2(t.day);
    assert s[8..10] == Pad2(t.hour);
    assert s[10..12] == Pad2(t.minute);
    assert s[12..] == Pad2(t.second);
    assert s[12..14] == Pad2(t.second);
    Pad4Value(t.year);
    Pad2Value(t.month);
    Pad2Value(t.day);
    Pad2Value(t.hour);
    Pad2Value(t.minute);
    Pad2Value(t.second);
  }

  /** Two different seconds never give the same 24-hour stamp. */
  lemma Stamp24Injective(t: DateTime, u: DateTime)
    requires Valid(t) && Valid(u)
    requires Stamp24(t) == Stamp24(u)
    ensures t == u
  {
    Stamp24RoundTrip(t);
    Stamp24RoundTrip(u);
  }

  /** The 12-hour stamp is the 24-hour stamp of the same reading with the
      hour folded onto 1..12. */
  lemma Stamp12Folds(t: DateTime)
    requires Valid(t)
    ensures Valid(t.(hour := Hour12(t.hour)))
    ensures Stamp12(t) == Stamp24(t.(hour := Hour12(t.hour)))
  {
  }

  /** Readings twelve hours apart on the same day give the same 12-hour stamp,
      although their 24-hour stamps differ. */
  lemma Stamp12Collides(t: DateTime)
    requires Valid(t) && t.hour < 12
    ensures Valid(t.(hour := t.hour + 12))
    ensures Stamp12(t) == Stamp12(t.(hour := t.hour + 12))
    ensures Stamp24(t) != Stamp24(t.(hour := t.hour + 12))
  {
    var u := t.(hour := t.hour + 12);
    assert Hour12(u.hour) == Hour12(t.hour);
    assert Stamp12(u) == Digits(u, Hour12(t.hour)) == Digits(t, Hour12(t.hour));
    if Stamp24(t) == Stamp24(u) {
      Stamp24Injective(t, u);
    }
  }
}

=== FILE: workflow.dfy ===
/** How the stages fit together: the launcher's seed record satisfies every
    read of the Preparer, the Preparer's record satisfies every read of the
    Remediator, and the stack the Remediator launches is built from the
    template the Preparer copied into the bucket it created. */
module Workflow {
  import opened Wrappers
  import opened PyValue
  import opened Timestamp
  import opened Launcher
  import opened OpsBucket
  import opened Identity
  import opened Remediator

  /** The seed record raises no `KeyError` in the Preparer, and each of the
      ten values the Preparer reads is the member field or the configuration
      value the launcher put there. */
  lemma SeedFeedsPreparer(cfg: Config, member: MemberData)
    ensures ReadPreparerInput(PrepareInput(cfg, Some(member)).value) == Ok(PreparerInput(
              Str(cfg.orgId), Str(cfg.assumeRole), Str(cfg.masterAccount), Str(cfg.homeRegion), Str(cfg.masterBucket),
              member.memberAccount, member.memberEmail, Str(cfg.shAdminAccount), Str(cfg.memberBucket),
              Str(cfg.cfnTemplateName)))
  {
    var seed := PrepareInput(cfg, Some(member)).value;
    assert PreparerReads <= seed.Keys;
  }

  /** The Preparer's record raises no `KeyError` in the Remediator, which
      launches into the home region and uses the timestamped bucket. */
  lemma PreparerFeedsRemediator(env: PreparerEnv, event: Record)
    requires Valid(env.now)
    ensures Preparer(env, event).result.Ok? ==>
              var out := Preparer(env, event).result.value;
              && PreparerReads <= event.Keys
              && ReadRemediatorInput(out).Ok?
              && ReadRemediatorInput(out).value == RemediatorInput(
                   event["org_id"], event["assume_role"], event["member_account"], event["member_email"],
                   event["home_region"], Str(MemberBucketName(event["member_bucket"], env.now)), event["cfn_template_name"])
  {
    if Preparer(env, event).result.Ok? {
      PreparerOutputShape(env, event);
      PreparerPassesThrough(env, event);
      var out := Preparer(env, event).result.value;
      assert RemediatorReads <= out.Keys;
    }
  }

  /** One execution of the state machine for a seed record: the Preparer, then
      the Remediator on its output if it did not raise. */
  datatype WorkflowRun = WorkflowRun(preparer: Run<Record>, remediator: Option<RemediatorRun>)

  function RunWorkflow(seed: Record, prep: PreparerEnv, rem: RemediatorEnv): (w: WorkflowRun)
    requires Valid(prep.now)
    ensures w.preparer == Preparer(prep, seed)
    ensures w.remediator.Some? <==> w.preparer.result.Ok?
  {
    var prepared := Preparer(prep, seed);
    if prepared.result.Err? then WorkflowRun(prepared, None)
    else WorkflowRun(prepared, Some(Remediate(rem, prepared.result.value)))
  }

  /** The Preparer returns on the seed record when no S3 call fails, both of
      its roles can be assumed and the template is in the master bucket. */
  lemma SeedPrepared(cfg: Config, member: MemberData, prep: PreparerEnv)
    requires Valid(prep.now)
    requires prep.failing == {}
    requires AssumeRole(prep.sts, Str(cfg.orgId), Str(cfg.masterAccount), Str(cfg.assumeRole)).Ok?
    requires AssumeRole(prep.sts, Str(cfg.orgId), member.memberAccount, Str(cfg.assumeRole)).Ok?
    requires ObjectRef(cfg.masterBucket, cfg.cfnTemplateName) in prep.s3.objects
    ensures Preparer(prep, PrepareInput(cfg, Some(member)).value).result.Ok?
  {
    var seed := PrepareInput(cfg, Some(member)).value;
    SeedFeedsPreparer(cfg, member);
    assert AssumeStageRoles(prep.sts, ReadPreparerInput(seed).value).Ok?;
    PreparerReturnsExactly(prep, seed);
  }

  /** End to end, the success path: with no S3 call failing, every role
      assumable, the template in the master bucket, a string e-mail address, a
      stack service accepting the create and no stack yet for the member, the
      workflow creates the member's stack and reports its id. */
  lemma WorkflowLaunchesStack(cfg: Config, member: MemberData, prep: PreparerEnv, rem: RemediatorEnv)
    requires Valid(prep.now)
    requires prep.failing == {}
    requires AssumeRole(prep.sts, Str(cfg.orgId), Str(cfg.masterAccount), Str(cfg.assumeRole)).Ok?
    requires AssumeRole(prep.sts, Str(cfg.orgId), member.memberAccount, Str(cfg.assumeRole)).Ok?
    requires AssumeRole(rem.sts, Str(cfg.orgId), member.memberAccount, Str(cfg.assumeRole)).Ok?
    requires ObjectRef(cfg.masterBucket, cfg.cfnTemplateName) in prep.s3.objects
    requires member.memberEmail.Str?
    requires !rem.cfn.rejects && StackName(member.memberAccount) !in rem.cfn.stacks
    ensures var w := RunWorkflow(PrepareInput(cfg, Some(member)).value, prep, rem);
            && w.preparer.result.Ok? && w.remediator.Some? && w.remediator.value.result.Ok?
            && w.remediator.value.result.value["stack_id"] == Str(rem.cfn.nextStackId)
            && StackName(member.memberAccount) in w.remediator.value.cfn.stacks
  {
    var seed := PrepareInput(cfg, Some(member)).value;
    SeedFeedsPreparer(cfg, member);
    SeedPrepared(cfg, member, prep);
    PreparerFeedsRemediator(prep, seed);
    var out := Preparer(prep, seed).result.value;
    var rin := ReadRemediatorInput(out).value;
    var exchange := AssumeRole(rem.sts, rin.orgId, rin.memberAccount, rin.role).value;
    var launch := LaunchStack(rem.cfn, rin, exchange.userArn);
    assert launch.stackId.Some?;
    assert Remediate(rem, out) == RemediatorRun(launch.cfn, launch.sent, Ok(RemediatorOutput(rin, launch.stackId)));
    RemediatorOutputFields(rin, launch.stackId);
  }

  /** When the template copy fails, the Remediator never runs: no stack is
      launched from a bucket without the template. */
  lemma FailedCopyLaunchesNothing(seed: Record, prep: PreparerEnv, rem: RemediatorEnv)
    requires Valid(prep.now)
    requires CopyObject in prep.failing
    ensures RunWorkflow(seed, prep, rem).remediator.None?
  {
    PreparerStopsAtFailure(prep, seed);
  }

  /** The Preparer's part of a run on the seed record: the timestamped bucket
      is owned and holds the template, and the record handed on gives the
      Remediator exactly the configuration values, the member fields, the
      home region and that bucket. */
  lemma SeedPreparerEffects(cfg: Config, member: MemberData, prep: PreparerEnv)
    requires Valid(prep.now)
    ensures var run := Preparer(prep, PrepareInput(cfg, Some(member)).value);
            run.result.Ok? ==>
              var bucket := cfg.memberBucket + "-" + Stamp24(prep.now);
              && bucket in run.s3.owned
              && ObjectRef(bucket, cfg.cfnTemplateName) in run.s3.objects
              && ReadRemediatorInput(run.result.value) == Ok(RemediatorInput(
                   Str(cfg.orgId), Str(cfg.assumeRole), member.memberAccount, member.memberEmail,
                   Str(cfg.homeRegion), Str(bucket), Str(cfg.cfnTemplateName)))
  {
    var seed := PrepareInput(cfg, Some(member)).value;
    if Preparer(prep, seed).result.Ok? {
      SeedFeedsPreparer(cfg, member);
      PreparerEffects(prep, seed);
      PreparerFeedsRemediator(prep, seed);
    }
  }

  /** The Remediator's part: a stack request it sends is built from the values it read. */
  lemma RemediatorSendsRead(rem: RemediatorEnv, out: Record, input: RemediatorInput)
    requires ReadRemediatorInput(out) == Ok(input)
    ensures Remediate(rem, out).sent.Some? ==>
              var q := Remediate(rem, out).sent.value;
              && q.templateUrl == "https://" + Show(input.memberBucket) + ".s3.amazonaws.com/" + Show(input.templateName)
              && q.stackName == StackName(input.memberAccount)
              && q.region == input.memberRegion
              && |q.parameters| == 2 && q.parameters[1] == Parameter("AdminSNSNotificationEmailAddress", input.memberEmail)
  {
    if Remediate(rem, out).sent.Some? {
      var exchange := AssumeRole(rem.sts, input.orgId, input.memberAccount, input.role).value;
      LaunchRequestContent(input, exchange.userArn);
    }
  }

  /** End to end: for the member the launcher read, a launched stack is named
      after the member account, targets the home region, notifies the member's
      address, and takes its template from the object the Preparer copied into
      the bucket it created and owns. */
  lemma LaunchUsesPreparedTemplate(cfg: Config, member: MemberData, prep: PreparerEnv, rem: RemediatorEnv)
    requires Valid(prep.now)
    ensures var w := RunWorkflow(PrepareInput(cfg, Some(member)).value, prep, rem);
            w.remediator.Some? && w.remediator.value.sent.Some? ==>
              var q := w.remediator.value.sent.value;
              var bucket := cfg.memberBucket + "-" + Stamp24(prep.now);
              && bucket in w.preparer.s3.owned
              && ObjectRef(bucket, cfg.cfnTemplateName) in w.preparer.s3.objects
              && q.templateUrl == "https://" + bucket + ".s3.amazonaws.com/" + cfg.cfnTemplateName
              && q.stackName == "SHRemediator-" + Show(member.memberAccount)
              && q.region == Str(cfg.homeRegion)
              && |q.parameters| == 2 && q.parameters[1] == Parameter("AdminSNSNotificationEmailAddress", member.memberEmail)
  {
    var w := RunWorkflow(PrepareInput(cfg, Some(member)).value, prep, rem);
    if w.remediator.Some? && w.remediator.value.sent.Some? {
      SeedPreparerEffects(cfg, member, prep);
      var out := w.preparer.result.value;
      RemediatorSendsRead(rem, out, ReadRemediatorInput(out).value);
    }
  }

}

=== FILE: wrappers.dfy ===
/** Failure-compatible datatypes used throughout the model.
    `Result` stands for "the Python call returned a value" or "the Python call raised". */
module Wrappers {

  datatype Option<+T> = None | Some(value: T)

  datatype Result<+T, +E> = Ok(value: T) | Err(error: E) {

    predicate IsFailure() {
      Err?
    }

    function PropagateFailure<U>(): Result<U, E>
      requires Err?
    {
      Err(error)
    }

    function Extract(): T
      requires Ok?
    {
      value
    }
  }
}
